=== FILE: README.md ===
# SAP-1 assembler, modelled in Dafny

The SAP-1 computer comes with two Python assemblers that turn mnemonic source
lines into a stream of byte cells and write each cell as one line of text,
`{:08b}: {:08b} annotation`:

- `tools/assembler.py`, the two-pass assembler. Pass one:
  - skips blank lines;
  - binds each `name:` label to the number of cells emitted so far;
  - looks every other line up in the mnemonic table by its *signature* (the
    cleaned line with numeric literals deleted and every word after `@`
    replaced by `@`);
  - emits an opcode cell `(line, opcode)` and at most one operand cell. An
    immediate operand becomes its value; a label operand becomes a placeholder,
    which is recorded in `label_fixups`.

  Pass two overwrites every placeholder with the address of its label.
- `control_logic_decoder/assembler.py`, the earlier single-pass assembler. It
  uses the same `Clean` and a signature that only deletes numeric literals. It
  ignores label lines and accepts only immediate operands.

Both assemblers read the mnemonic table from a header file of
`Instruction("...")` declarations. On a file of declarations only, entry k of
the table, and so opcode k, is the signature of the k-th line. Every line of
the file must be a declaration. The two-pass loader skips a line that is the
empty string, but a line read from a file keeps its terminator, so that skip
never happens: a blank line (`"\n"`) stops both loaders.

The project has these modules:

- `Outcomes` (outcomes.dfy): `Option`, the `Result` that stands for
  `ErrorOut`/`exit(1)` and for Python exceptions, and the error kinds.
- `Prefixes` (prefixes.dfy): generic sequence facts.
- `Text` (text.dfy): `Clean`, Python 2's `lower()`, `\s+` collapsing and
  `strip()`.
- `Patterns` (patterns.dfy): the regular expressions of both files, written as
  small scanners. This covers the number pattern with its ordered
  alternatives, the label pattern, the declaration pattern, `find`, `index`
  and `int()`.
- `ObjectFormat` (object_format.dfy): the `{:08b}` object-file line and its
  decoding.
- `TwoPass` (two_pass.dfy): the two-pass assembler.
- `SinglePass` (single_pass.dfy): the single-pass assembler.

In each assembler module, the module-level list `s_mnemonics` is the
`mnemonics` field of an `Assembler` class. `LoadMnemonics` and `Assemble` are
its methods.

The loops are imperative methods, each proved equal to a specification
function. The specification functions are the table load, the line loop, the
fixup loop and the emission loop, and lemmas state the source's promises about
them.

A source line is first *classified* by a pure function (`Classify`): blank,
label, rejected by the mnemonic pattern, or an instruction with its text,
signature and operand. One loop step (`Step`) then acts on the classified line.

Some consequences of the code that are easy to miss, all of which the model
follows:

- On a line such as `start: lda #5`, the label is bound and the rest of the
  line is dropped (`continue`). The instruction is not assembled.
- An immediate is read with `int()`, base 10. A `0x..` literal raises, and
  this is modelled as `BadLiteral`. `010` reads as 10.
- In the number pattern the octal alternative comes before the decimal one. In
  the two-pass operand search this has two effects:
  - the number is tried before the name, so `@loop1` is the immediate 1, not a
    label;
  - in `@089` the first match is `0`, so the value is 0.
- A table entry written `jmp @` never matches a source line `jmp @end`, whose
  signature is `jmp @@`. A table that should accept label jumps has to declare
  the name form, e.g. `jmp @label`.

## Model

| member | source | states |
|---|---|---|
| Text.ToLower | tools/assembler.py:38 | Python 2 `str.lower` on one character: no upper case letter is left, other characters are unchanged, and the classes whitespace, `\w`, digit and letter are kept |
| Text.Lower | tools/assembler.py:38 | the lower-cased line has the same length and no upper case letter; each capital becomes the letter 32 code points on, every other character is unchanged |
| Text.LStrip | tools/assembler.py:40 | the result is a suffix of the line with no leading whitespace; everything removed was whitespace |
| Text.RStrip | tools/assembler.py:40 | the result is a prefix of the line with no trailing whitespace; everything removed was whitespace |
| Text.CollapseFrom | tools/assembler.py:39 | a line that starts with a non-space keeps that first character (the collapsing itself: `Text.CollapseRun`) |
| Text.CollapseChars | tools/assembler.py:39 | after collapsing, every character is ' ' or a non-whitespace character of the line |
| Text.CollapseSingleSpaces | tools/assembler.py:39 | after collapsing, no two spaces are adjacent, and a run continued from before does not start with a space |
| Text.CollapseLowerCanonical | tools/assembler.py:38-39 | lower-casing then collapsing gives canonical text: no upper case, no whitespace but ' ', no double space |
| Text.SliceCanonical | tools/assembler.py:40 | any slice of canonical text is canonical |
| Text.StripCanonical | tools/assembler.py:40 | stripping canonical text leaves it canonical and without a leading or trailing space |
| Text.CleanIsClean | tools/assembler.py:36-41 | `Clean` output is lower case, has single spaces only and no leading or trailing whitespace |
| Text.CollapseOfCanonical | tools/assembler.py:39 | collapsing text that already has single spaces only changes nothing |
| Text.CleanOfClean | tools/assembler.py:36-41 | `Clean` leaves an already clean line unchanged |
| Text.CleanIdempotent | tools/assembler.py:36-41 | `Clean(Clean(x)) == Clean(x)` |
| Text.NonSpaceAppend | tools/assembler.py:39-40 | the non-whitespace characters of a concatenation are those of its parts |
| Text.NonSpaceAllSpace | tools/assembler.py:40 | a whitespace-only string has no non-whitespace characters |
| Text.NonSpaceLStrip | tools/assembler.py:40 | stripping on the left keeps every non-whitespace character |
| Text.NonSpaceRStrip | tools/assembler.py:40 | stripping on the right keeps every non-whitespace character |
| Text.NonSpaceCollapse | tools/assembler.py:39 | collapsing whitespace keeps every non-whitespace character, in order |
| Text.CleanKeepsNonSpace | tools/assembler.py:36-41 | `Clean` drops only whitespace: its non-whitespace characters are those of the lower-cased line |
| Text.LowerAppend | tools/assembler.py:38 | lower-casing distributes over concatenation |
| Text.LStripAppend | tools/assembler.py:40 | left-stripping a line whose tail starts with a non-space strips only the head |
| Text.RStripAppend | tools/assembler.py:40 | right-stripping a line whose head ends with a non-space strips only the tail |
| Text.CollapseAppend | tools/assembler.py:39 | collapsing before a non-space boundary works part by part |
| Text.CollapseNoSpace | tools/assembler.py:39 | a word without whitespace passes through collapsing unchanged |
| Text.CollapseAround | tools/assembler.py:39 | collapsing around a word without whitespace collapses each side on its own |
| Text.CollapseRun | tools/assembler.py:39 | `\s+` becomes exactly one space: collapsing `a + w + b` with a non-empty whitespace run `w` between non-space edges gives `Collapse(a) + " " + Collapse(b)` |
| Text.StripAround | tools/assembler.py:40 | stripping around a word without edge whitespace strips each side on its own |
| Text.CleanAround | tools/assembler.py:36-41 | cleaning around a word without whitespace cleans each side and only lower-cases the word |
| Text.CleanSeparated | tools/assembler.py:36-41 | two whitespace-free words separated by any whitespace run clean to the lower-cased words around one space (`LDA \t #5` cleans to `lda #5`) |
| Text.CleanTailStart | tools/assembler.py:36-41 | the cleaned rest of a line that starts with a non-word character still starts with one, or is empty |
| Patterns.Filter | control_logic_decoder/assembler.py:33 | the characters kept satisfy the predicate and are no more than the input |
| Patterns.FilterAppend | control_logic_decoder/assembler.py:33 | filtering distributes over concatenation |
| Patterns.FilterNone | control_logic_decoder/assembler.py:33 | a string none of whose characters qualifies filters to nothing |
| Patterns.Span | tools/assembler.py:17 | the longest prefix whose characters satisfy the predicate: all before it qualify, the next does not |
| Patterns.SpanAppend | tools/assembler.py:17 | a span that ends inside the head ignores the tail |
| Patterns.NumberMatch | tools/assembler.py:17 | the number pattern matches at a position exactly when a digit is there, with its alternatives in order: after `0x`, every hex digit that follows (at least one); otherwise after `0`, every octal digit that follows; otherwise every decimal digit that follows; the match stops at the first character its alternative cannot take |
| Patterns.NumberMatchAppend | tools/assembler.py:17 | a match is not extended past a character the pattern cannot consume |
| Patterns.NumberMatchWhole | tools/assembler.py:17 | a numeral followed by a character its alternative cannot take (a non-digit, or after a leading `0` a non-octal character other than `x`) is matched whole |
| Patterns.StripNumbers | tools/assembler.py:47 | `kNumberRegex.sub("", s)` leaves no decimal digit |
| Patterns.StripNumbersKeepsNonNumeric | tools/assembler.py:47 | deleting literals keeps every character no literal can contain, in order |
| Patterns.StripNumbersDigitsOnly | control_logic_decoder/assembler.py:33 | on a line without a `0x` literal, deleting literals deletes exactly the decimal digits |
| Patterns.StripNumbersAppend | tools/assembler.py:47 | deleting literals works part by part when the second part starts with a character no literal can contain |
| Patterns.StripNumbersNoDigits | tools/assembler.py:47 | a digit-free head passes through literal deletion unchanged |
| Patterns.StripNumbersDigits | control_logic_decoder/assembler.py:33 | a run of digits is deleted entirely, whichever alternative matches first |
| Patterns.MarkedValue | control_logic_decoder/assembler.py:24-25 | `#digits` and `@digits` contain no whitespace and no upper case |
| Patterns.CleanAroundValue | control_logic_decoder/assembler.py:22-27 | cleaning around a marked value leaves the value unchanged |
| Patterns.StripAroundValue | control_logic_decoder/assembler.py:33 | deleting literals around a marked value deletes its digits and keeps its marker |
| Patterns.StripMarkedValue | control_logic_decoder/assembler.py:33 | a marked value followed by a non-word character keeps only its marker |
| Patterns.StripDigitsBefore | control_logic_decoder/assembler.py:33 | digits followed by a non-word character vanish |
| Patterns.StripNumbersNoNew | tools/assembler.py:47 | literal deletion brings in no character the input lacks |
| Patterns.DecimalLeadingZero | tools/assembler.py:127 | a leading zero does not change the base-10 value (`int("010") == 10`) |
| Patterns.DecimalDigits | tools/assembler.py:127 | the base-10 numeral of a number: non-empty, all digits, and starting with `0` only for 0 |
| Patterns.DecimalDigitsRoundTrip | tools/assembler.py:127 | the numeral of a number reads back as that number |
| Patterns.DecimalValueRoundTrip | tools/assembler.py:127 | a numeral without a leading zero is the numeral of its value |
| Patterns.ParseInt | tools/assembler.py:127 | `int()` in base 10 succeeds exactly on non-empty all-digit text, with the base-10 value of the text; anything else (e.g. `0x1f`) is a failure |
| Patterns.ParseIntDigits | tools/assembler.py:127 | `int()` reads back the numeral of every number |
| Patterns.ParseIntLeadingZero | tools/assembler.py:127 | `int()` ignores a leading zero |
| Patterns.ParseIntExamples | tools/assembler.py:127 | `int("200")` is 200 and `int("010")` is 10 |
| Patterns.Find | tools/assembler.py:120 | `str.find`: -1 exactly when absent, otherwise the first position of the character |
| Patterns.SearchFrom | tools/assembler.py:124-125 | the first position at or after `start` whose character qualifies, or none when there is none |
| Patterns.IndexOf | tools/assembler.py:110-113 | `list.index`: absent exactly when the signature is not in the table, otherwise the FIRST index holding it |
| Patterns.LabelDecl | tools/assembler.py:96-98 | `(\w+):` matches at the start exactly when a non-empty run of word characters is followed by ':'; group 1 is that run |
| Patterns.DeclText | tools/assembler.py:60-63 | a match of `Instruction\("([^"]+)"` at the start of the line; group 1 is a non-empty text without a quote, framed by the pattern |
| Patterns.DeclTextOf | tools/assembler.py:60-63 | conversely, a line that starts with `Instruction("t"` for a non-empty quote-free `t` yields `t` |
| Patterns.OperandMarker | tools/assembler.py:120-121 | the first '#', or failing that the first '@', or -1 when the line has neither |
| Patterns.OperandMarkerAt | tools/assembler.py:120-121 | a line with no marker before the one at position k (and, for `@`, no `#` anywhere) has its operand marker at k |
| Patterns.NumberSearch | tools/assembler.py:124 | `kNumberRegex.search` from a position: none exactly when no digit follows; otherwise the number pattern's match at the first digit at or after the position |
| Patterns.NumberSearchLiteral | tools/assembler.py:124 | past a digit-free gap, the search returns a whole numeral |
| ObjectFormat.Pow2 | tools/assembler.py:156 | powers of two are positive |
| ObjectFormat.BinDigits | tools/assembler.py:156 | the binary digits of a number: non-empty and all bits |
| ObjectFormat.BinDigitsRoundTrip | tools/assembler.py:156 | the binary digits read back as the number |
| ObjectFormat.BinValueLeadingZeros | tools/assembler.py:156 | zero padding does not change the value read back |
| ObjectFormat.BinDigitsLength | tools/assembler.py:156 | a number needs at most k binary digits exactly when it is below 2^k |
| ObjectFormat.Bin8Bits | tools/assembler.py:156 | a `{:08b}` field holds only binary digits |
| ObjectFormat.Bin8Value | tools/assembler.py:156 | a `{:08b}` field reads back as its number, including a number of 256 or more (field wider than 8) |
| ObjectFormat.Bin8Width | tools/assembler.py:156 | a `{:08b}` field is exactly 8 digits wide exactly when the number is below 256 |
| ObjectFormat.Bin8Field | tools/assembler.py:156 | the three facts about the field together |
| ObjectFormat.FormatLineRoundTrip | tools/assembler.py:156 | an emitted line decodes back to its address, its value and its annotation (the source line, or empty) |
| ObjectFormat.FormatLinesRoundTrip | control_logic_decoder/assembler.py:108-110 | every line of an output of fewer than 256 byte cells decodes back to address k, its value and its annotation |
| ObjectFormat.WriteOutput | tools/assembler.py:154-156 | the emission loop writes one line per cell, line k formatting cell k at address k |
| TwoPass.ReplaceNames | tools/assembler.py:48 | `re.sub("(?<=@)\w+", "@", s)`: after an '@' no word character follows; outside a name the first character is kept |
| TwoPass.ReplaceNamesNoDigits | tools/assembler.py:48 | name replacement brings in no digit |
| TwoPass.ReplaceNamesNoNameAfterAt | tools/assembler.py:48 | after replacement no '@' is followed by a word character |
| TwoPass.ReplaceNamesNoAt | tools/assembler.py:48 | text without an '@' is copied unchanged |
| TwoPass.Sanitize | tools/assembler.py:44-49 | the signature has no decimal digit, no '@' in it is followed by a word character, and a cleaned line without an '@' only loses its numeric literals |
| TwoPass.ReplaceNamesSkipName | tools/assembler.py:48 | the rest of a name after '@' is deleted up to the next non-word character |
| TwoPass.ReplaceNamesAtSign | tools/assembler.py:48 | an '@' is kept and starts a name |
| TwoPass.ReplaceNamesAt | tools/assembler.py:48 | `@name` becomes `@@` |
| TwoPass.ReplaceNamesAppend | tools/assembler.py:48 | replacement works part by part at a non-word boundary |
| TwoPass.CleanAtName | tools/assembler.py:46 | cleaning around `@name` cleans each side and lower-cases the name |
| TwoPass.StripAtName | tools/assembler.py:47 | deleting literals around a digit-free `@name` deletes them on each side only |
| TwoPass.StripAroundName | tools/assembler.py:46-47 | clean-then-strip around a digit-free `@name` works on each side on its own |
| TwoPass.ReplaceNamesAround | tools/assembler.py:48 | a name between two parts becomes `@@`, and each part is replaced on its own |
| TwoPass.SanitizeAroundName | tools/assembler.py:44-49 | the signature of a line holding `@name` is the signature of each side around `@@` |
| TwoPass.SanitizeIgnoresName | tools/assembler.py:44-49 | two lines that differ only in a digit-free name after '@' have the same signature |
| TwoPass.SanitizeAroundValue | tools/assembler.py:44-49 | the signature of a line with a marked value `#digits` or `@digits` is the name replacement of the marker between the two sides, each cleaned and stripped of literals |
| TwoPass.SanitizeIgnoresValue | tools/assembler.py:44-49 | two lines that differ only in the decimal value after the marker have the same signature |
| TwoPass.SanitizeImmediateExample | tools/assembler.py:44-49 | `lda #5` looks up `lda #` |
| TwoPass.LoadTable | tools/assembler.py:56-65 | the table has at most one entry per line; a failure is a malformed entry on a line of the file |
| TwoPass.LoadTableStopsAtFailure | tools/assembler.py:61-62 | once a line is rejected, later lines change nothing |
| TwoPass.LoadTablePasses | tools/assembler.py:57-62 | the load succeeds exactly when every line other than the empty string is a declaration; lines read from a file keep their terminator, so that is every line |
| TwoPass.LoadTableFirstBadLine | tools/assembler.py:58-62 | the load fails on the first line that is neither the empty string nor a declaration, with that line's number |
| TwoPass.BlankTableLineRejected | tools/assembler.py:57-62 | a blank header line, read as `"\n"`, is not skipped: after a run of declarations it fails the load with its line number |
| TwoPass.LoadTableDecl | tools/assembler.py:63-65 | a declaration appends its sanitized text to the table |
| TwoPass.LoadTableOpcodes | tools/assembler.py:57-65 | on a file of declarations the table holds entry k = signature of declaration k, in file order |
| TwoPass.OperandOf | tools/assembler.py:120-134 | no marker means no operand; an immediate exactly when a digit follows the marker (number tried first); a label reference is a digit-free name; otherwise no word follows the marker (the operand text: `TwoPass.OperandImmediate`, `TwoPass.OperandLabel`) |
| TwoPass.OperandImmediate | tools/assembler.py:120-127 | a whole numeral after the first marker and a digit-free gap is the immediate: `OperandOf(p + [m] + g + d + q) == Immediate(d)` |
| TwoPass.OperandLabel | tools/assembler.py:120-132 | a digit-free name right after `@`, with no digit after it, is the label reference: `OperandOf(p + "@" + n + q) == LabelRef(n)` |
| TwoPass.OperandDecimalExample | tools/assembler.py:120-127 | `lda #200` has the immediate `200` |
| TwoPass.OperandLeadingZeroExample | tools/assembler.py:120-127 | `lda #010` has the immediate `010` |
| TwoPass.OperandDigitInNameExample | tools/assembler.py:120-127 | `jmp @loop1` has the immediate `1`: the number search looks inside the name |
| TwoPass.OperandOctalStopExample | tools/assembler.py:17 | `jmp @089` has the immediate `0`: the octal alternative stops at `8` |
| TwoPass.OperandLabelExample | tools/assembler.py:120-132 | `jmp @end` refers to the label `end` |
| TwoPass.Classify | tools/assembler.py:89-108 | blank exactly when the cleaned line is empty; a label line carries the declared name; rejected exactly when the cleaned line is non-empty, not a label declaration and fails the mnemonic pattern; an instruction carries the cleaned line, its signature and its operand; neither is a label line |
| TwoPass.Lines | tools/assembler.py:88 | one classified line per source line |
| TwoPass.AppendOperand | tools/assembler.py:119-134 | succeeds exactly when the operand is not an immediate that is not base-10 or above 255; an immediate that is not base-10 fails, one above 255 fails, otherwise its value cell is appended; a label appends a placeholder and records its address; no operand appends nothing; labels never change |
| TwoPass.Instruction | tools/assembler.py:108-134 | succeeds exactly when the signature is in the table and the operand is acceptable; each error kind (unknown instruction, bad literal, value out of range) exactly under its own condition; on success the opcode cell `(line, first index)` comes first, followed by exactly one operand cell when there is an operand: `(None, int(text))` for an immediate, a placeholder `(None, None)` recorded in the fixups for a label |
| TwoPass.Step | tools/assembler.py:89-134 | a blank line changes nothing; a new label binds its name to the output length and appends nothing; a known label fails as a duplicate; a rejected line is a syntax error; an instruction line succeeds exactly when its signature is known and its operand acceptable; errors carry the line number; the output only grows |
| TwoPass.Run | tools/assembler.py:88-134 | pass one emits at most two cells per line, and every state it reaches is well-formed: placeholders exactly at recorded addresses, labels within the output, each opcode cell followed by at most one operand cell |
| TwoPass.CellsAppend | tools/assembler.py:117-133 | appending an opcode cell, or an operand cell right after one, keeps every cell well-formed |
| TwoPass.AppendOperandWellFormed | tools/assembler.py:119-134 | appending an operand keeps the pass-one state well-formed: placeholders exactly at recorded addresses, labels within the output, cells well-formed |
| TwoPass.InstructionWellFormed | tools/assembler.py:108-134 | an instruction line keeps the pass-one state well-formed |
| TwoPass.StepWellFormed | tools/assembler.py:89-134 | every line keeps the pass-one state well-formed |
| TwoPass.RunStopsAtError | tools/assembler.py:68-73 | after an error the later lines are never read |
| TwoPass.RunPrefix | tools/assembler.py:88-134 | the state after a prefix of the lines is extended by the later ones |
| TwoPass.RunOneMore | tools/assembler.py:88 | the state after line j + 1 is one step from the state after line j |
| TwoPass.RunLabels | tools/assembler.py:96-101 | after pass one, the bound names are exactly the names of the label lines |
| TwoPass.RunSucceeds | tools/assembler.py:88-134 | pass one succeeds exactly when every line is acceptable: no rejected line, each label declared once, each instruction known with an immediate that is base-10 and at most 255, a label, or no operand |
| TwoPass.LineStep | tools/assembler.py:108-130 | an instruction line's opcode cell sits at the output length before it, with the first table index of its signature; an immediate's cell after it holds `int()` of its text |
| TwoPass.LineCells | tools/assembler.py:108-134 | in the final pass-one output, each instruction's opcode cell is at the address reached before its line, followed by its operand cell, which holds `int()` of an immediate |
| TwoPass.LabelStep | tools/assembler.py:97-101 | a label line binds its name to the output length before it |
| TwoPass.LabelAddress | tools/assembler.py:97-101 | after pass one, each declared label is bound to the number of cells emitted before its line |
| TwoPass.LabelBoundAfter | tools/assembler.py:97-101 | a label stays bound on every later line |
| TwoPass.DuplicateLabelRejected | tools/assembler.py:99-100 | a label declared twice makes the assembly fail |
| TwoPass.StepKeepsFixups | tools/assembler.py:134 | a recorded fixup is never overwritten by a later line |
| TwoPass.RunKeepsFixups | tools/assembler.py:134 | a fixup recorded after a prefix survives to the end of pass one |
| TwoPass.JumpPlaceholder | tools/assembler.py:131-134 | a label operand records its name at the address of its placeholder cell |
| TwoPass.JumpFixup | tools/assembler.py:131-134 | after pass one, the cell after each label-jump opcode is recorded with its label's name |
| TwoPass.ProcessLine | tools/assembler.py:89-134 | the loop body computes exactly one step of pass one |
| TwoPass.PassOneLoop | tools/assembler.py:88-134 | the line loop computes pass one |
| TwoPass.Resolve | tools/assembler.py:136-142 | every recorded address holds its label's address, and keeps its annotation; every other cell is unchanged; an undeclared name fails |
| TwoPass.FixupJumps | tools/assembler.py:137-142 | the fixup loop, visiting addresses in any order, computes `Resolve`, so the result does not depend on the order |
| TwoPass.Assembled | tools/assembler.py:88-142 | pass-one errors pass through; on success every cell has a value |
| TwoPass.JumpTarget | tools/assembler.py:97-142 | the operand cell of a jump to a label holds the number of cells emitted before the label's line |
| TwoPass.ImmediateCell | tools/assembler.py:126-142 | the fixups leave an immediate in place: the cell after its opcode holds `int()` of its text |
| TwoPass.ImmediateStored | tools/assembler.py:88-142 | end to end, a source line whose cleaned text has a whole numeral after the marker stores the base-10 value of that numeral after its opcode |
| TwoPass.NamedJumpStored | tools/assembler.py:88-142 | end to end, `... @name` with a declared `name` stores the number of cells emitted before the label line after its opcode |
| TwoPass.AssembledBytes | tools/assembler.py:117-142 | with a table of at most 256 entries and fewer than 256 cells, every cell value fits in a byte |
| TwoPass.EmittedLines | tools/assembler.py:154-156 | under those bounds, every emitted line decodes back to address k, the cell's byte and its annotation |
| TwoPass.Assembler.constructor | tools/assembler.py:32 | the mnemonic table starts empty |
| TwoPass.Assembler.LoadMnemonics | tools/assembler.py:52-65 | a non-empty table is left alone; otherwise the table and status are the load's |
| TwoPass.Assembler.Assemble | tools/assembler.py:76-156 | a failed table load fails the assembly; otherwise it fails exactly when pass one or the fixups fail, with the same error, and line k of the output formats cell k |
| SinglePass.Sanitize | control_logic_decoder/assembler.py:30-34 | the signature has no decimal digit and keeps, in order, every character no literal can contain (so `#`, `@` and letters other than a-f and x) |
| SinglePass.SanitizeCleaned | control_logic_decoder/assembler.py:30-34 | sanitizing the cleaned line is sanitizing the raw line |
| SinglePass.SanitizeAroundValue | control_logic_decoder/assembler.py:30-34 | the signature of a line with a marked value is the marker between the signatures of its two sides |
| SinglePass.SanitizeIgnoresValue | control_logic_decoder/assembler.py:30-34 | two lines that differ only in the decimal value after the marker have the same signature |
| SinglePass.LoadTable | control_logic_decoder/assembler.py:41-46 | at most one entry per line; a failure is a malformed entry on a line of the file |
| SinglePass.LoadTableStopsAtFailure | control_logic_decoder/assembler.py:43-44 | once a line is rejected, later lines change nothing |
| SinglePass.LoadTablePasses | control_logic_decoder/assembler.py:42-46 | the load succeeds exactly when every line, empty ones included, is a declaration |
| SinglePass.LoadTableFirstBadLine | control_logic_decoder/assembler.py:43-44 | the load fails on the first line that is not a declaration, with that line's number |
| SinglePass.LoadTableOpcodes | control_logic_decoder/assembler.py:41-46 | on a file of declarations the table holds entry k = signature of declaration k, in file order |
| SinglePass.OperandOf | control_logic_decoder/assembler.py:89-94 | no operand exactly when there is no '#' or '@'; missing exactly when no digit follows the marker; otherwise a number match (its text: `SinglePass.OperandLiteral`) |
| SinglePass.OperandLiteral | control_logic_decoder/assembler.py:89-94 | a whole numeral after the first marker and a digit-free gap is the literal: `OperandOf(p + [m] + g + d + q) == Literal(d)` |
| SinglePass.OperandAtExample | control_logic_decoder/assembler.py:89-94 | `jmp @loop1` has the literal `1` |
| SinglePass.Classify | control_logic_decoder/assembler.py:62-77 | blank exactly when the cleaned line is empty; a label line exactly when `\w+:` matches; rejected exactly when no letter starts the line; an instruction carries the cleaned line, its signature and its operand |
| SinglePass.Lines | control_logic_decoder/assembler.py:61 | one classified line per source line |
| SinglePass.Instruction | control_logic_decoder/assembler.py:77-97 | succeeds exactly when the signature is in the table and there is no marker or a base-10 literal of at most 255; an unknown signature, a marker without a number, a non-base-10 literal and a value above 255 each fail with their own error; on success the opcode cell `(line, first index)` is appended, followed by `(None, value)` when there is a literal |
| SinglePass.Step | control_logic_decoder/assembler.py:62-97 | blank and label lines append nothing; a rejected line is a syntax error; an instruction line succeeds exactly when it is acceptable, and then the output grows by one cell, or by two with an operand; errors carry the line number |
| SinglePass.Run | control_logic_decoder/assembler.py:61-97 | an error names a line of the file |
| SinglePass.RunLength | control_logic_decoder/assembler.py:86-97 | the output has one cell per instruction line plus one per instruction line carrying a marker |
| SinglePass.RunStopsAtError | control_logic_decoder/assembler.py:49-51 | after an error the later lines are never read |
| SinglePass.RunPrefix | control_logic_decoder/assembler.py:61-97 | the output after a prefix of the lines is a prefix of the final output |
| SinglePass.RunOneMore | control_logic_decoder/assembler.py:61 | the output after line j + 1 is one step from the output after line j |
| SinglePass.RunSucceeds | control_logic_decoder/assembler.py:61-97 | the line loop succeeds exactly when no line is rejected and every instruction is known and has no marker or a base-10 literal of at most 255 |
| SinglePass.RunErrorLine | control_logic_decoder/assembler.py:61-97 | a failed run fails on its error's line, after a successful run of the lines before it |
| SinglePass.LineStep | control_logic_decoder/assembler.py:77-97 | an instruction line puts its opcode cell at the output length before it, then its literal's cell |
| SinglePass.LineCells | control_logic_decoder/assembler.py:77-97 | in the final output each instruction's opcode cell is at the address reached before its line, followed by its value cell |
| SinglePass.LiteralStored | control_logic_decoder/assembler.py:61-97 | end to end, a source line whose cleaned text has a whole numeral after the marker stores the base-10 value of that numeral after its opcode |
| SinglePass.LiteralCell | control_logic_decoder/assembler.py:93-97 | the cell after the opcode of a line with an all-digit literal holds its base-10 value |
| SinglePass.CellsSnoc | control_logic_decoder/assembler.py:86-97 | appending an opcode cell, or an operand cell right after one, keeps every cell well-formed |
| SinglePass.StepCells | control_logic_decoder/assembler.py:62-97 | every step keeps every cell well-formed |
| SinglePass.RunCells | control_logic_decoder/assembler.py:61-97 | every cell of the output is well-formed: an opcode within the table, or a byte after an opcode cell |
| SinglePass.CellsBytes | control_logic_decoder/assembler.py:95-97 | with a table of at most 256 entries every cell holds a byte |
| SinglePass.EmittedLines | control_logic_decoder/assembler.py:108-110 | under those bounds, every emitted line decodes back to address k, the cell's byte and its annotation |
| SinglePass.ProcessLine | control_logic_decoder/assembler.py:62-97 | the loop body computes exactly one step |
| SinglePass.LineLoop | control_logic_decoder/assembler.py:60-97 | the line loop computes the run |
| SinglePass.Assembler.constructor | control_logic_decoder/assembler.py:6 | the mnemonic table starts empty |
| SinglePass.Assembler.LoadMnemonics | control_logic_decoder/assembler.py:37-46 | a non-empty table is left alone; otherwise the table and status are the load's |
| SinglePass.Assembler.Assemble | control_logic_decoder/assembler.py:54-110 | a failed table load fails the assembly; otherwise it fails exactly when the line loop fails, with the same error; every cell is well-formed and line k of the output formats cell k |

## Left out

- Text.CollapseFrom: its own contract states only that a leading non-space is
  kept. That a whitespace run becomes exactly one space is the lemma
  `Text.CollapseRun`, and the shape of the result is `Text.CollapseChars` and
  `Text.CollapseSingleSpaces`.
- TwoPass.OperandOf: its own contract gives the shape of the operand. Its text
  is tied to the characters after the marker by `TwoPass.OperandImmediate` and
  `TwoPass.OperandLabel`, for lines of the forms those lemmas name.
- SinglePass.OperandOf: likewise, its literal's text is stated by
  `SinglePass.OperandLiteral`.

- File I/O is not modelled. Reading the table header and the source file,
  deriving the `.jexe` path with `os.path.splitext`, and writing the object
  file all become values. Inputs are sequences of lines and the output is a
  sequence of strings.
- The fixed table file names (`../instructions.h` and `instructions.h`) become
  a parameter.
- `print` is not modelled. This covers the `print(s_mnemonics)` dump
  (control_logic_decoder/assembler.py:56) and the final message.
- `ErrorOut`'s message text and `exit(1)` become an error value carrying a
  line number. So the message slips in the source are not modelled: the
  literal `"identifier"` and the stale `linenum` on an undefined label.
  `UndefinedLabel` carries no line and no name.
- Python exceptions are modelled as error values: the failed `assert` on the
  mnemonic pattern, `int()` raising, and `.group` on `None`.
- A failed table load leaves the entries read before it in the table. The
  model keeps them too, but a failure ends the assembly.
- The `maxLen` computation is not modelled. It has no effect on the output
  (tools/assembler.py:148-152, control_logic_decoder/assembler.py:102-106).
- The mnemonic pattern `kMnemonicPattern` is modelled only by whether it
  matches: a letter at the start of the stripped line. Its argument groups are
  never read.
- General regular-expression semantics are left out. Only the patterns used
  are modelled, as scanners.
- Python 2 strings are modelled: the ASCII whitespace and letter classes.
  Unicode case folding and Unicode whitespace are not.
- `dict.iteritems()` order is not modelled. The fixup loop picks addresses in
  an arbitrary order, and its result is proved not to depend on that order.
- Addresses, label addresses and table indices are not range-checked, as in
  the source. The byte and 8-digit properties are stated only for a table of
  at most 256 entries and fewer than 256 cells.
- arduino/libraries/eeprom_common/eeprom_common.h is not part of this model.
  It only drives the EEPROM programmer's pins.

=== FILE: object_format.dfy ===
/** The instruction stream and its text form (the `.jexe` object file): one line
    `"{:08b}: {:08b} {}\n"` per cell, as written by tools/assembler.py:154-156 and,
    identically, by control_logic_decoder/assembler.py:108-110. */
module ObjectFormat {
  import opened Outcomes

  /** One cell of the instruction stream, as the Python tuple the assemblers append:
      `(line, opcode)` for an opcode cell, `(None, value)` for an operand cell and
      `(None, None)` for a label placeholder that pass two fills in. */
  datatype Cell = Cell(annotation: Option<string>, value: Option<nat>)

  predicate IsBit(c: char) { c == '0' || c == '1' }

  function Pow2(k: nat): (r: nat)
    ensures r >= 1
  {
    if k == 0 then 1 else 2 * Pow2(k - 1)
  }

  /** `format(n, 'b')`: the binary digits of `n`, without leading zeros. */
  function BinDigits(n: nat): (r: string)
    ensures r != []
    ensures forall i :: 0 <= i < |r| ==> IsBit(r[i])
  {
    if n < 2 then [if n == 0 then '0' else '1']
    else BinDigits(n / 2) + [if n % 2 == 0 then '0' else '1']
  }

  /** `format(n, '08b')`: the binary digits of `n`, padded with zeros on the left
      to at least eight characters. */
  function Bin8(n: nat): string {
    var d := BinDigits(n);
    if |d| < 8 then seq(8 - |d|, _ => '0') + d else d
  }

  /** The value of a string of binary digits (the inverse of the formatting). */
  function BinValue(s: string): nat {
    if s == [] then 0
    else 2 * BinValue(s[..|s| - 1]) + (if s[|s| - 1] == '1' then 1 else 0)
  }

  lemma {:induction false} BinDigitsRoundTrip(n: nat)
    ensures BinValue(BinDigits(n)) == n
  {
    if n >= 2 {
      var d := BinDigits(n / 2) + [if n % 2 == 0 then '0' else '1'];
      assert d[..|d| - 1] == BinDigits(n / 2);
      BinDigitsRoundTrip(n / 2);
    }
  }

  lemma {:induction false} BinValueLeadingZeros(z: nat, s: string)
    ensures BinValue(seq(z, _ => '0') + s) == BinValue(s)
    decreases |s|, z
  {
    var zs := seq(z, _ => '0');
    if s == [] {
      assert zs + s == zs;
      if z > 0 {
        assert zs[..z - 1] == seq(z - 1, _ => '0');
        BinValueLeadingZeros(z - 1, []);
        assert seq(z - 1, _ => '0') + [] == seq(z - 1, _ => '0');
      }
    } else {
      var t := zs + s;
      assert t[..|t| - 1] == zs + s[..|s| - 1];
      BinValueLeadingZeros(z, s[..|s| - 1]);
    }
  }

  /** Binary digits fit in `k` places exactly when the value is below 2^k. */
  lemma {:induction false} BinDigitsLength(n: nat, k: nat)
    requires k >= 1
    ensures |BinDigits(n)| <= k <==> n < Pow2(k)
  {
    if n >= 2 {
      if k > 1 {
        BinDigitsLength(n / 2, k - 1);
      } else {
        assert |BinDigits(n)| == |BinDigits(n / 2)| + 1;
      }
    } else {
      assert Pow2(k) >= 2 by { assert Pow2(k) == 2 * Pow2(k - 1); }
    }
  }

  lemma Pow2Eight()
    ensures Pow2(8) == 256
  {
  }

  lemma Bin8Bits(n: nat)
    ensures forall i :: 0 <= i < |Bin8(n)| ==> IsBit(Bin8(n)[i])
  {
    var d := BinDigits(n);
    if |d| < 8 {
      var b := seq(8 - |d|, _ => '0') + d;
      assert forall i :: 0 <= i < |b| ==> b[i] == '0' || b[i] == d[i - (8 - |d|)];
    }
  }

  lemma Bin8Value(n: nat)
    ensures BinValue(Bin8(n)) == n
  {
    var d := BinDigits(n);
    BinDigitsRoundTrip(n);
    if |d| < 8 {
      BinValueLeadingZeros(8 - |d|, d);
    }
  }

  lemma Bin8Width(n: nat)
    ensures |Bin8(n)| == 8 <==> n < 256
  {
    BinDigitsLength(n, 8);
    Pow2Eight();
  }

  /** The `{:08b}` field: all binary digits, decoding back to the value, and
      exactly eight characters wide precisely for the values 0..255. */
  lemma Bin8Field(n: nat)
    ensures forall i :: 0 <= i < |Bin8(n)| ==> IsBit(Bin8(n)[i])
    ensures BinValue(Bin8(n)) == n
    ensures |Bin8(n)| == 8 <==> n < 256
  {
    Bin8Bits(n);
    Bin8Value(n);
    Bin8Width(n);
  }

  /** The annotation column: `code[0] if code[0] else ""`. */
  function Annotation(c: Cell): string {
    match c.annotation
    case Some(text) => text
    case None => ""
  }

  /** The object-file line of the cell at `address`. */
  function FormatLine(address: nat, c: Cell): string
    requires c.value.Some?
  {
    Bin8(address) + ": " + Bin8(c.value.value) + " " + Annotation(c) + "\n"
  }

  /** Reads an object-file line back: address, value and annotation. */
  function DecodeLine(line: string): Option<(nat, nat, string)> {
    if |line| >= 20 && line[8..10] == ": " && line[18] == ' ' && line[|line| - 1] == '\n'
    then Some((BinValue(line[..8]), BinValue(line[10..18]), line[19..|line| - 1]))
    else None
  }

  /** Emitted line k carries address k and the cell's value, each as eight binary
      digits when below 256, followed by the cell's annotation: reading the line
      back gives all three. */
  lemma FormatLineRoundTrip(address: nat, c: Cell)
    requires c.value.Some?
    requires address < 256 && c.value.value < 256
    ensures DecodeLine(FormatLine(address, c)) == Some((address, c.value.value, Annotation(c)))
  {
    var a := Bin8(address);
    var v := Bin8(c.value.value);
    Bin8Field(address);
    Bin8Field(c.value.value);
    var line := FormatLine(address, c);
    assert line == a + ": " + v + " " + Annotation(c) + "\n";
    assert line[..8] == a;
    assert line[8..10] == ": ";
    assert line[10..18] == v;
    assert line[19..|line| - 1] == Annotation(c);
  }

  /** Every line of a stream of fewer than 256 byte cells reads back as its
      address, its value and its annotation. */
  lemma FormatLinesRoundTrip(cells: seq<Cell>)
    requires |cells| < 256
    requires forall k :: 0 <= k < |cells| ==> cells[k].value.Some? && cells[k].value.value < 256
    ensures forall k :: 0 <= k < |cells| ==>
      DecodeLine(FormatLine(k, cells[k])) == Some((k, cells[k].value.value, Annotation(cells[k])))
  {
    forall k | 0 <= k < |cells|
      ensures DecodeLine(FormatLine(k, cells[k])) == Some((k, cells[k].value.value, Annotation(cells[k])))
    {
      FormatLineRoundTrip(k, cells[k]);
    }
  }

  /** The emission loop `for address, code in enumerate(output): f.write(...)`;
      the file is the concatenation of the returned lines.  Every cell must be
      resolved (formatting `None` raises in Python). */
  method WriteOutput(output: seq<Cell>) returns (lines: seq<string>)
    requires forall k :: 0 <= k < |output| ==> output[k].value.Some?
    ensures |lines| == |output|
    ensures forall k :: 0 <= k < |output| ==> lines[k] == FormatLine(k, output[k])
  {
    lines := [];
    var address := 0;
    while address < |output|
      invariant 0 <= address <= |output|
      invariant |lines| == address
      invariant forall k :: 0 <= k < address ==> lines[k] == FormatLine(k, output[k])
    {
      var line := FormatLine(address, output[address]);
      ghost var prev := lines;
      lines := lines + [line];
      assert forall k :: 0 <= k < address ==> lines[k] == prev[k];
      assert lines[address] == line;
      address := address + 1;
    }
  }
}

=== FILE: outcomes.dfy ===
/** Failure-compatible result types and the error kinds of both assemblers.
    Every `ErrorOut(...)` / `exit(1)` and every uncaught Python exception of the
    assemblers becomes an `Err` value here; message texts are not modelled. */
module Outcomes {

  datatype Option<+T> = None | Some(value: T)

  /** Why an assembly (or the loading of the mnemonic table) stopped.
      `line` is the 1-based number of the offending line. */
  datatype Error =
    | MalformedTableEntry(line: nat)  // a table declaration does not match Instruction("...")
    | SyntaxError(line: nat)          // the mnemonic pattern does not match (the `assert` fails)
    | UnknownInstruction(line: nat)   // the signature is not in the mnemonic table
    | BadLiteral(line: nat)           // int() rejects the operand text (a 0x literal)
    | MissingOperand(line: nat)       // an operand marker without any number after it (single pass)
    | ValueOutOfRange(line: nat)      // an immediate operand outside 0..255
    | DuplicateLabel(line: nat)       // a label declared a second time
    | UndefinedLabel                  // a label reference whose label is never declared

  datatype Result<+T> = Ok(value: T) | Err(error: Error) {
    predicate IsFailure() { Err? }

    function PropagateFailure<U>(): Result<U>
      requires Err?
    {
      Err(error)
    }

    function Extract(): T
      requires Ok?
    {
      value
    }
  }

  /** A result without a value, for operations that only change state. */
  datatype Outcome = Pass | Fail(error: Error)

  /** The mnemonic table a load builds from the declaration lines of a file, and
      whether the load got through the whole file. */
  datatype Loaded = Loaded(entries: seq<string>, status: Outcome)
}

=== FILE: patterns.dfy ===
/** Hand-written scanners for the regular expressions and string builtins that
    both assemblers use.  Each function returns exactly what Python's `re` (or the
    builtin) returns for that one pattern: the ordered alternatives and greedy
    repetitions are written out, not a general regular-expression engine. */
module Patterns {
  import opened Outcomes
  import opened Text
  import opened Prefixes

  predicate IsOctal(c: char) { '0' <= c <= '7' }

  /** The class `[\dA-Fa-f]`. */
  predicate IsHex(c: char) { IsDigit(c) || 'a' <= c <= 'f' || 'A' <= c <= 'F' }

  /** Characters that no alternative of the number pattern can consume. */
  predicate NotNumeric(c: char) { !IsHex(c) && c != 'x' && c != 'X' }

  predicate NotDigit(c: char) { !IsDigit(c) }

  /** The characters of `s` that satisfy `p`, in order. */
  function Filter(s: string, p: char -> bool): (r: string)
    ensures |r| <= |s|
    ensures forall i :: 0 <= i < |r| ==> p(r[i])
  {
    if s == [] then [] else if p(s[0]) then [s[0]] + Filter(s[1..], p) else Filter(s[1..], p)
  }

  lemma {:induction false} FilterAppend(a: string, b: string, p: char -> bool)
    ensures Filter(a + b, p) == Filter(a, p) + Filter(b, p)
  {
    if a == [] {
      assert a + b == b;
    } else {
      assert (a + b)[0] == a[0] && (a + b)[1..] == a[1..] + b;
      FilterAppend(a[1..], b, p);
    }
  }

  lemma {:induction false} FilterNone(s: string, p: char -> bool)
    requires forall i :: 0 <= i < |s| ==> !p(s[i])
    ensures Filter(s, p) == []
  {
    if s != [] {
      FilterNone(s[1..], p);
    }
  }

  /** The length of the longest prefix of `s` made of characters satisfying `p`:
      what a greedy `p+` or `p*` consumes. */
  function Span(s: string, p: char -> bool): (n: nat)
    ensures n <= |s|
    ensures forall i :: 0 <= i < n ==> p(s[i])
    ensures n < |s| ==> !p(s[n])
  {
    if s != [] && p(s[0]) then 1 + Span(s[1..], p) else 0
  }

  lemma {:induction false} SpanAppend(a: string, b: string, p: char -> bool)
    requires b == [] || !p(b[0])
    ensures Span(a + b, p) == Span(a, p)
  {
    if a == [] {
      assert a + b == b;
    } else {
      assert (a + b)[0] == a[0] && (a + b)[1..] == a[1..] + b;
      SpanAppend(a[1..], b, p);
    }
  }

  /** A greedy repetition takes a string made of qualifying characters whole. */
  lemma {:induction false} SpanAll(t: string, p: char -> bool)
    requires forall i :: 0 <= i < |t| ==> p(t[i])
    ensures Span(t, p) == |t|
  {
    if t != [] {
      assert forall i :: 0 <= i < |t[1..]| ==> t[1..][i] == t[i + 1];
      SpanAll(t[1..], p);
    }
  }

  /** `s` starts with a match of the first alternative `0[xX][\dA-Fa-f]+`. */
  predicate StartsHexLiteral(s: string) {
    |s| >= 3 && s[0] == '0' && (s[1] == 'x' || s[1] == 'X') && IsHex(s[2])
  }

  /** The length of the match of kNumberPattern `(0[xX][\dA-Fa-f]+|0[0-7]*|\d+)` at
      the start of `s`, or 0 when it does not match there.  The alternatives are
      tried in this order, so "089" matches only "0" and "0x" without a hex digit
      matches only "0". */
  function NumberMatch(s: string): (n: nat)
    ensures n <= |s|
    ensures n > 0 <==> s != [] && IsDigit(s[0])
    ensures forall i :: 0 <= i < n ==> !NotNumeric(s[i])
    ensures !StartsHexLiteral(s) ==> forall i :: 0 <= i < n ==> IsDigit(s[i])
    // first alternative: `0x` and every hex digit after it
    ensures StartsHexLiteral(s) ==>
      3 <= n && (forall i :: 2 <= i < n ==> IsHex(s[i])) && (n < |s| ==> !IsHex(s[n]))
    // second alternative: `0` and every octal digit after it
    ensures !StartsHexLiteral(s) && s != [] && s[0] == '0' ==>
      (forall i :: 1 <= i < n ==> IsOctal(s[i])) && (n < |s| ==> !IsOctal(s[n]))
    // third alternative: every decimal digit
    ensures s != [] && '1' <= s[0] <= '9' ==> n < |s| ==> !IsDigit(s[n])
  {
    if StartsHexLiteral(s) then
      var k := Span(s[2..], IsHex);
      assert forall i :: 2 <= i < 2 + k ==> s[i] == s[2..][i - 2];
      2 + k
    else if s != [] && s[0] == '0' then
      var k := Span(s[1..], IsOctal);
      assert forall i :: 1 <= i < 1 + k ==> s[i] == s[1..][i - 1];
      1 + k
    else if s != [] && IsDigit(s[0]) then Span(s, IsDigit)
    else 0
  }

  /** `d` is a numeric literal that the number pattern takes whole when `q`
      follows it: a decimal numeral without a leading zero followed by a
      non-digit, or a `0` with octal digits followed by neither an octal digit
      nor an `x`. */
  predicate WholeLiteral(d: string, q: string) {
    && d != [] && (forall i :: 0 <= i < |d| ==> IsDigit(d[i]))
    && if d[0] != '0' then q == [] || !IsDigit(q[0])
       else (forall i :: 1 <= i < |d| ==> IsOctal(d[i])) &&
            (q == [] || (!IsOctal(q[0]) && q[0] != 'x' && q[0] != 'X'))
  }

  /** The number pattern matches exactly a whole literal. */
  lemma NumberMatchWhole(d: string, q: string)
    requires WholeLiteral(d, q)
    ensures NumberMatch(d + q) == |d|
  {
    var s := d + q;
    assert s[0] == d[0];
    assert !StartsHexLiteral(s) by {
      if |d| > 1 { assert s[1] == d[1]; } else if q != [] { assert s[1] == q[0]; }
    }
    if d[0] == '0' {
      assert s[1..] == d[1..] + q;
      SpanAll(d[1..], IsOctal);
      SpanAppend(d[1..], q, IsOctal);
    } else {
      SpanAll(d, IsDigit);
      SpanAppend(d, q, IsDigit);
    }
  }

  /** A number match that starts in `a` never runs into a following character
      that no alternative consumes. */
  lemma NumberMatchAppend(a: string, b: string)
    requires a != []
    requires b == [] || NotNumeric(b[0])
    ensures NumberMatch(a + b) == NumberMatch(a)
  {
    var s := a + b;
    assert s[0] == a[0];
    assert StartsHexLiteral(s) == StartsHexLiteral(a) by {
      if |a| >= 3 { assert s[1] == a[1] && s[2] == a[2]; }
      else if |a| == 2 && b != [] { assert s[1] == a[1] && s[2] == b[0]; }
      else if |a| == 1 && b != [] { assert s[1] == b[0]; }
    }
    if StartsHexLiteral(a) {
      assert s[2..] == a[2..] + b;
      SpanAppend(a[2..], b, IsHex);
    } else if a[0] == '0' {
      assert s[1..] == a[1..] + b;
      SpanAppend(a[1..], b, IsOctal);
    } else if IsDigit(a[0]) {
      SpanAppend(a, b, IsDigit);
    }
  }

  /** `kNumberRegex.sub("", s)`: every number match, scanned left to right, is
      deleted.  No decimal digit survives, since every digit starts a match. */
  function StripNumbers(s: string): (r: string)
    ensures forall i :: 0 <= i < |r| ==> !IsDigit(r[i])
    decreases |s|
  {
    if s == [] then []
    else
      var n := NumberMatch(s);
      if n > 0 then StripNumbers(s[n..]) else [s[0]] + StripNumbers(s[1..])
  }

  /** The number scanner only removes characters that can belong to a numeric
      literal: every other character (letters g-w, y, z, '#', '@', ' ', ...)
      survives, in order. */
  lemma {:induction false} StripNumbersKeepsNonNumeric(s: string)
    ensures Filter(StripNumbers(s), NotNumeric) == Filter(s, NotNumeric)
    decreases |s|
  {
    if s != [] {
      var n := NumberMatch(s);
      if n > 0 {
        assert s == s[..n] + s[n..];
        FilterAppend(s[..n], s[n..], NotNumeric);
        FilterNone(s[..n], NotNumeric);
        StripNumbersKeepsNonNumeric(s[n..]);
      } else {
        StripNumbersKeepsNonNumeric(s[1..]);
        assert ([s[0]] + StripNumbers(s[1..]))[1..] == StripNumbers(s[1..]);
      }
    }
  }

  /** No position of `s` starts a `0x` literal. */
  predicate NoHexLiteral(s: string) {
    forall i :: 0 <= i < |s| ==> !StartsHexLiteral(s[i..])
  }

  lemma NoHexLiteralSuffix(s: string, n: nat)
    requires NoHexLiteral(s) && n <= |s|
    ensures NoHexLiteral(s[n..])
  {
    forall i | 0 <= i < |s[n..]|
      ensures !StartsHexLiteral(s[n..][i..])
    {
      DropDrop(s, n, i);
    }
  }

  /** Filtering ignores a leading run of characters that the filter drops. */
  lemma FilterDropPrefix(s: string, n: nat, p: char -> bool)
    requires n <= |s| && forall i :: 0 <= i < n ==> !p(s[i])
    ensures Filter(s, p) == Filter(s[n..], p)
  {
    var dropped := s[..n];
    assert forall i :: 0 <= i < |dropped| ==> !p(dropped[i]);
    TakeDrop(s, n);
    FilterAppend(dropped, s[n..], p);
    FilterNone(dropped, p);
  }

  /** Without a `0x` literal, stripping numbers is exactly deleting every digit. */
  lemma {:induction false} StripNumbersDigitsOnly(s: string)
    requires NoHexLiteral(s)
    ensures StripNumbers(s) == Filter(s, NotDigit)
    decreases |s|
  {
    if s != [] {
      assert s[0..] == s;
      var n := NumberMatch(s);
      if n > 0 {
        FilterDropPrefix(s, n, NotDigit);
        NoHexLiteralSuffix(s, n);
        StripNumbersDigitsOnly(s[n..]);
      } else {
        NoHexLiteralSuffix(s, 1);
        StripNumbersDigitsOnly(s[1..]);
      }
    }
  }

  /** Stripping numbers works piecewise across a character that no number can contain. */
  lemma {:induction false} StripNumbersAppend(a: string, b: string)
    requires b == [] || NotNumeric(b[0])
    ensures StripNumbers(a + b) == StripNumbers(a) + StripNumbers(b)
    decreases |a|
  {
    if a == [] {
      assert a + b == b;
    } else {
      NumberMatchAppend(a, b);
      var n := NumberMatch(a);
      if n > 0 {
        DropAppend(a, b, n);
        StripNumbersAppend(a[n..], b);
      } else {
        DropAppend(a, b, 1);
        StripNumbersAppend(a[1..], b);
        Concat3([a[0]], StripNumbers(a[1..]), StripNumbers(b));
      }
    }
  }

  /** A run of characters that cannot start a number passes through unchanged. */
  lemma {:induction false} StripNumbersNoDigits(w: string, b: string)
    requires forall i :: 0 <= i < |w| ==> !IsDigit(w[i])
    ensures StripNumbers(w + b) == w + StripNumbers(b)
    decreases |w|
  {
    if w == [] {
      assert w + b == b;
    } else {
      assert (w + b)[0] == w[0];
      DropAppend(w, b, 1);
      StripNumbersNoDigits(w[1..], b);
      Concat3([w[0]], w[1..], StripNumbers(b));
      HeadTail(w);
    }
  }

  /** A run of decimal digits is deleted entirely, even when a leading '0'
      makes the octal alternative match first ("089" goes as "0" then "89"). */
  lemma {:induction false} StripNumbersDigits(d: string)
    requires forall i :: 0 <= i < |d| ==> IsDigit(d[i])
    ensures StripNumbers(d) == []
    decreases |d|
  {
    if d != [] {
      var n := NumberMatch(d);
      assert forall i :: 0 <= i < |d[n..]| ==> d[n..][i] == d[n + i];
      StripNumbersDigits(d[n..]);
    }
  }

  /** A marker followed by digits, as a word: no whitespace and no upper case. */
  lemma MarkedValue(m: char, d: string)
    requires m == '#' || m == '@'
    requires forall i :: 0 <= i < |d| ==> IsDigit(d[i])
    ensures forall i :: 0 <= i < |[m] + d| ==> !IsSpace(([m] + d)[i])
    ensures Lower([m] + d) == [m] + d
  {
  }

  /** Cleaning a line around a marked value leaves the value as it is. */
  lemma CleanAroundValue(p: string, m: char, d: string, q: string)
    requires m == '#' || m == '@'
    requires forall i :: 0 <= i < |d| ==> IsDigit(d[i])
    ensures Clean(p + [m] + d + q) == LStrip(Collapse(Lower(p))) + ([m] + d) + RStrip(Collapse(Lower(q)))
  {
    MarkedValue(m, d);
    Concat3(p, [m], d);
    CleanAround(p, [m] + d, q);
  }

  /** Deleting the literals around a marked value: the digits go, the marker stays. */
  lemma StripAroundValue(a: string, m: char, d: string, b: string)
    requires m == '#' || m == '@'
    requires forall i :: 0 <= i < |d| ==> IsDigit(d[i])
    requires b == [] || !IsWord(b[0])
    ensures StripNumbers(a + ([m] + d) + b) == StripNumbers(a) + [m] + StripNumbers(b)
  {
    Concat3(a, [m] + d, b);
    StripNumbersAppend(a, [m] + d + b);
    StripMarkedValue(m, d, b);
    Concat3(StripNumbers(a), [m], StripNumbers(b));
  }

  /** The marked value alone: the marker stays, the digits go. */
  lemma StripMarkedValue(m: char, d: string, b: string)
    requires m == '#' || m == '@'
    requires forall i :: 0 <= i < |d| ==> IsDigit(d[i])
    requires b == [] || !IsWord(b[0])
    ensures StripNumbers([m] + d + b) == [m] + StripNumbers(b)
  {
    Concat3([m], d, b);
    assert !IsDigit([m][0]);
    StripNumbersNoDigits([m], d + b);
    StripDigitsBefore(d, b);
  }

  /** Digits in front of a non-word character are deleted with nothing else. */
  lemma StripDigitsBefore(d: string, b: string)
    requires forall i :: 0 <= i < |d| ==> IsDigit(d[i])
    requires b == [] || !IsWord(b[0])
    ensures StripNumbers(d + b) == StripNumbers(b)
  {
    assert b == [] || NotNumeric(b[0]);
    StripNumbersAppend(d, b);
    StripNumbersDigits(d);
  }

  /** Deleting literals never brings in a character: one missing from the
      input is missing from the output. */
  lemma {:induction false} StripNumbersNoNew(s: string, c: char)
    requires forall i :: 0 <= i < |s| ==> s[i] != c
    ensures forall i :: 0 <= i < |StripNumbers(s)| ==> StripNumbers(s)[i] != c
    decreases |s|
  {
    if s != [] {
      var n := NumberMatch(s);
      if n > 0 {
        assert forall i :: 0 <= i < |s[n..]| ==> s[n..][i] == s[n + i];
        StripNumbersNoNew(s[n..], c);
      } else {
        assert forall i :: 0 <= i < |s[1..]| ==> s[1..][i] == s[i + 1];
        StripNumbersNoNew(s[1..], c);
      }
    }
  }

  function DigitValue(c: char): nat
    requires IsDigit(c)
  {
    c as int - '0' as int
  }

  /** The decimal numeral of `v` without leading zeros, as `str(v)` writes it. */
  function DecimalDigits(v: nat): (r: string)
    ensures r != [] && forall i :: 0 <= i < |r| ==> IsDigit(r[i])
    ensures r[0] == '0' <==> v == 0
  {
    if v < 10 then [('0' as int + v) as char]
    else DecimalDigits(v / 10) + [('0' as int + v % 10) as char]
  }

  /** The value of a string of decimal digits. */
  function DecimalValue(s: string): nat
    requires forall i :: 0 <= i < |s| ==> IsDigit(s[i])
  {
    if s == [] then 0
    else
      assert IsDigit(s[|s| - 1]);
      10 * DecimalValue(s[..|s| - 1]) + DigitValue(s[|s| - 1])
  }

  /** Reading a numeral gives back its number. */
  lemma {:induction false} DecimalDigitsRoundTrip(v: nat)
    ensures DecimalValue(DecimalDigits(v)) == v
  {
    if v >= 10 {
      var d := DecimalDigits(v);
      assert d[..|d| - 1] == DecimalDigits(v / 10);
      DecimalDigitsRoundTrip(v / 10);
    }
  }

  /** Writing the value of a numeral without leading zeros gives back the numeral. */
  lemma {:induction false} DecimalValueRoundTrip(s: string)
    requires s != [] && forall i :: 0 <= i < |s| ==> IsDigit(s[i])
    requires |s| > 1 ==> s[0] != '0'
    ensures DecimalDigits(DecimalValue(s)) == s
    decreases |s|
  {
    var v := DecimalValue(s);
    var init := s[..|s| - 1];
    var last := DigitValue(s[|s| - 1]);
    if |s| == 1 {
      assert v == last;
    } else {
      DecimalValueRoundTrip(init);
      DecimalPositive(init);
      assert v / 10 == DecimalValue(init) && v % 10 == last;
      assert s == init + [s[|s| - 1]];
    }
  }

  /** A numeral without leading zeros other than "0" has a positive value. */
  lemma {:induction false} DecimalPositive(s: string)
    requires s != [] && forall i :: 0 <= i < |s| ==> IsDigit(s[i])
    requires s[0] != '0'
    ensures DecimalValue(s) > 0
    decreases |s|
  {
    if |s| > 1 {
      assert s[..|s| - 1][0] == s[0];
      DecimalPositive(s[..|s| - 1]);
    }
  }

  /** Leading zeros do not change a decimal value: `int("010") == 10`. */
  lemma {:induction false} DecimalLeadingZero(s: string)
    requires forall i :: 0 <= i < |s| ==> IsDigit(s[i])
    ensures DecimalValue("0" + s) == DecimalValue(s)
  {
    if s != [] {
      var t := "0" + s;
      assert t[..|t| - 1] == "0" + s[..|s| - 1];
      DecimalLeadingZero(s[..|s| - 1]);
    }
  }

  /** `int(text)` on a text that the number pattern matched: decimal digits are
      read in base 10 (leading zeros allowed); a `0x` literal makes `int` raise
      `ValueError`, which is `None` here. */
  function ParseInt(text: string): (r: Option<nat>)
    ensures r.Some? <==> text != [] && forall i :: 0 <= i < |text| ==> IsDigit(text[i])
    ensures r.Some? ==> r.value == DecimalValue(text)
  {
    if text != [] && forall i :: 0 <= i < |text| ==> IsDigit(text[i])
    then Some(DecimalValue(text))
    else None
  }

  /** `int()` reads back the numeral of every number. */
  lemma ParseIntDigits(v: nat)
    ensures ParseInt(DecimalDigits(v)) == Some(v)
  {
    DecimalDigitsRoundTrip(v);
  }

  /** `int()` ignores leading zeros: `int("010") == 10`. */
  lemma ParseIntLeadingZero(s: string)
    requires s != [] && forall i :: 0 <= i < |s| ==> IsDigit(s[i])
    ensures ParseInt("0" + s) == ParseInt(s)
  {
    DecimalLeadingZero(s);
    assert forall i :: 0 <= i < |"0" + s| ==> IsDigit(("0" + s)[i]);
  }

  /** `int("200")` is 200 and `int("010")` is 10, not the octal 8. */
  lemma ParseIntExamples()
    ensures ParseInt("200") == Some(200)
    ensures ParseInt("010") == Some(10)
  {
    assert DecimalDigits(200) == "200";
    ParseIntDigits(200);
    assert DecimalDigits(10) == "10" && "0" + "10" == "010";
    ParseIntDigits(10);
    ParseIntLeadingZero("10");
  }

  /** `str.find(c)`: the first index of `c` in `s`, or -1. */
  function Find(s: string, c: char): (r: int)
    ensures r == -1 <==> c !in s
    ensures r != -1 ==> 0 <= r < |s| && s[r] == c && c !in s[..r]
  {
    if s == [] then -1
    else if s[0] == c then 0
    else
      var k := Find(s[1..], c);
      if k == -1 then -1 else
        assert s[..k + 1] == [s[0]] + s[1..][..k];
        k + 1
  }

  /** The first index at or after `start` whose character satisfies `p`: where
      `regex.search(s, start)` finds its match, for a pattern whose matches are
      exactly the positions starting with such a character. */
  function SearchFrom(s: string, start: nat, p: char -> bool): (r: Option<nat>)
    ensures r.Some? ==> start <= r.value < |s| && p(s[r.value])
    ensures r.Some? ==> forall i :: start <= i < r.value ==> !p(s[i])
    ensures r.None? ==> forall i :: start <= i < |s| ==> !p(s[i])
    decreases |s| - start
  {
    if start >= |s| then None
    else if p(s[start]) then Some(start)
    else SearchFrom(s, start + 1, p)
  }

  /** `list.index(m)`: the first position of `m` in `table`; `None` where Python
      raises `ValueError`. */
  function IndexOf(table: seq<string>, m: string): (r: Option<nat>)
    ensures r.None? <==> m !in table
    ensures r.Some? ==> r.value < |table| && table[r.value] == m && m !in table[..r.value]
  {
    if table == [] then None
    else if table[0] == m then Some(0)
    else
      match IndexOf(table[1..], m)
      case None => None
      case Some(k) =>
        assert table[..k + 1] == [table[0]] + table[1..][..k];
        Some(k + 1)
  }

  /** `kLabelDeclRegex.match(line)` with kLabelDeclPattern `(\w+):` (the single-pass
      assembler's `\w+:` matches the same lines): the label name, when the line
      starts with a word followed by a colon. */
  function LabelDecl(line: string): (r: Option<string>)
    ensures r.Some? <==> exists n :: 0 < n < |line| && line[n] == ':' &&
                                     forall i :: 0 <= i < n ==> IsWord(line[i])
    ensures r.Some? ==> r.value != [] && |r.value| < |line| && line[..|r.value| + 1] == r.value + ":"
  {
    var n := Span(line, IsWord);
    if 0 < n < |line| && line[n] == ':' then
      assert line[..n + 1] == line[..n] + ":";
      Some(line[..n])
    else
      assert forall m :: 0 < m < |line| && line[m] == ':' ==> exists i :: 0 <= i < m && !IsWord(line[i]) by {
        forall m | 0 < m < |line| && line[m] == ':' ensures exists i :: 0 <= i < m && !IsWord(line[i]) {
          assert !IsWord(line[n]);
        }
      }
      None
  }

  /** `kMnemonicRegex.match(line)` succeeds: the pattern starts `\s*([a-zA-Z]+)` and
      everything after it is optional, so it matches whenever the first
      non-whitespace character is a letter. */
  predicate MnemonicMatches(line: string) {
    var t := LStrip(line);
    t != [] && IsLetter(t[0])
  }

  const InstructionPrefix: string := "Instruction(\""

  predicate NotQuote(c: char) { c != '"' }

  /** `kInstructionRegex.match(line)` with kInstructionPattern `Instruction\("([^"]+)"`:
      group 1, the declared mnemonic text, when the line starts with the pattern. */
  function DeclText(line: string): (r: Option<string>)
    ensures r.Some? ==> |InstructionPrefix| + |r.value| < |line|
    ensures r.Some? ==> line[..|InstructionPrefix| + |r.value| + 1] == InstructionPrefix + r.value + "\""
    ensures r.Some? ==> r.value != [] && '"' !in r.value
  {
    var k := |InstructionPrefix|;
    if |line| < k || line[..k] != InstructionPrefix then None
    else
      var rest := line[k..];
      var n := Span(rest, NotQuote);
      if 0 < n < |rest| then
        var text := rest[..n];
        assert forall i :: 0 <= i < n ==> text[i] != '"';
        assert rest[n] == '"';
        assert line[..k + n + 1] == line[..k] + rest[..n] + [rest[n]];
        Some(text)
      else None
  }

  /** The converse of `DeclText`'s contract: a line that starts with
      `Instruction("`, a non-empty text without a quote and a closing quote
      declares exactly that text, whatever follows. */
  lemma DeclTextOf(t: string, rest: string)
    requires t != [] && '"' !in t
    ensures DeclText(InstructionPrefix + t + "\"" + rest) == Some(t)
  {
    var line := InstructionPrefix + t + "\"" + rest;
    var k := |InstructionPrefix|;
    assert line[..k] == InstructionPrefix;
    assert line[k..] == t + ("\"" + rest);
    SpanAppend(t, "\"" + rest, NotQuote);
    SpanAll(t, NotQuote);
  }

  /** `str.find` returns the first occurrence. */
  lemma FindAt(s: string, c: char, k: nat)
    requires k < |s| && s[k] == c && c !in s[..k]
    ensures Find(s, c) == k
  {
    assert s[k] in s;
  }

  /** The marker of `p + [m] + x` is the `m` after `p`, when `p` holds neither
      marker and, for an '@', no '#' follows it. */
  lemma OperandMarkerAt(p: string, m: char, x: string)
    requires m == '#' || m == '@'
    requires '#' !in p && '@' !in p
    requires m == '@' ==> '#' !in x
    ensures OperandMarker(p + [m] + x) == |p|
  {
    var line := p + [m] + x;
    assert line[..|p|] == p;
    assert line[|p|] == m;
    if m == '#' {
      FindAt(line, '#', |p|);
    } else {
      assert '#' !in line by {
        assert forall i :: 0 <= i < |line| ==> line[i] == (if i < |p| then p[i] else if i == |p| then m else x[i - |p| - 1]);
      }
      FindAt(line, '@', |p|);
    }
  }

  /** The position of the operand marker: the first '#', or failing that the
      first '@' (`line.find("#")`, then `line.find("@")`), or -1 without either. */
  function OperandMarker(line: string): (r: int)
    ensures r == -1 <==> '#' !in line && '@' !in line
    ensures '#' in line ==> 0 <= r < |line| && line[r] == '#' && '#' !in line[..r]
    ensures '#' !in line && '@' in line ==> 0 <= r < |line| && line[r] == '@' && '@' !in line[..r]
  {
    var hash := Find(line, '#');
    if hash >= 0 then hash else Find(line, '@')
  }

  /** `p` is the first position at or after `start` holding a decimal digit. */
  predicate FirstDigitFrom(line: string, start: nat, p: nat) {
    start <= p < |line| && IsDigit(line[p]) && forall i :: start <= i < p ==> !IsDigit(line[i])
  }

  /** The digit search stops at the first digit. */
  lemma SearchFromFirst(line: string, start: nat, p: nat)
    requires FirstDigitFrom(line, start, p)
    ensures SearchFrom(line, start, IsDigit) == Some(p)
  {
  }

  /** The search from the end of `a` skips the digit-free `g` and takes the whole
      literal `d`. */
  lemma NumberSearchLiteral(a: string, g: string, d: string, q: string)
    requires forall i :: 0 <= i < |g| ==> !IsDigit(g[i])
    requires WholeLiteral(d, q)
    ensures NumberSearch(a + g + d + q, |a|) == Some(d)
  {
    var line := a + g + d + q;
    var k := |a| + |g|;
    assert forall i :: |a| <= i < k ==> line[i] == g[i - |a|];
    assert line[k] == d[0];
    assert FirstDigitFrom(line, |a|, k);
    assert line[k..] == d + q;
    NumberMatchWhole(d, q);
    assert (d + q)[..|d|] == d;
  }

  /** `kNumberRegex.search(line, start).group(0)`: the first number match at or
      after `start`.  Every decimal digit starts a match, so the search stops at
      the first digit and takes the match that starts there. */
  function NumberSearch(line: string, start: nat): (r: Option<string>)
    ensures r.None? <==> forall i :: start <= i < |line| ==> !IsDigit(line[i])
    ensures r.Some? ==> r.value != [] && IsDigit(r.value[0])
    ensures r.Some? ==> forall i :: 0 <= i < |r.value| ==> !NotNumeric(r.value[i])
    ensures forall p: nat :: FirstDigitFrom(line, start, p) ==> r == Some(line[p..][..NumberMatch(line[p..])])
  {
    assert forall p: nat :: FirstDigitFrom(line, start, p) ==> SearchFrom(line, start, IsDigit) == Some(p) by {
      forall p: nat | FirstDigitFrom(line, start, p) ensures SearchFrom(line, start, IsDigit) == Some(p) {
        SearchFromFirst(line, start, p);
      }
    }
    match SearchFrom(line, start, IsDigit)
    case None => None
    case Some(p) =>
      Some(line[p..][..NumberMatch(line[p..])])
  }
}

=== FILE: prefixes.dfy ===
/** Facts about sequences: associativity of concatenation, and prefixes, used
    to step the line loops of both assemblers from one line to the next. */
module Prefixes {
  /** Concatenation is associative. */
  lemma Concat3<T>(a: seq<T>, b: seq<T>, c: seq<T>)
    ensures a + b + c == a + (b + c)
  {
  }

  /** Dropping a prefix of the first part of a concatenation. */
  lemma DropAppend<T>(a: seq<T>, b: seq<T>, n: nat)
    requires n <= |a|
    ensures (a + b)[n..] == a[n..] + b
  {
  }

  /** A non-empty sequence is its first element followed by the rest. */
  lemma HeadTail<T>(s: seq<T>)
    requires s != []
    ensures [s[0]] + s[1..] == s
  {
  }

  /** The last element of a concatenation with a non-empty second part. */
  lemma LastOfAppend<T>(a: seq<T>, b: seq<T>)
    requires b != []
    ensures (a + b)[|a + b| - 1] == b[|b| - 1]
  {
  }

  /** A sequence is its prefix followed by the rest. */
  lemma TakeDrop<T>(s: seq<T>, n: nat)
    requires n <= |s|
    ensures s[..n] + s[n..] == s
  {
  }

  /** A suffix of a suffix is a suffix. */
  lemma DropDrop<T>(s: seq<T>, n: nat, i: nat)
    requires n + i <= |s|
    ensures s[n..][i..] == s[n + i..]
  {
  }

  /** A prefix of a prefix is a prefix. */
  lemma TakeTake<T>(s: seq<T>, i: nat, j: nat)
    requires i <= j <= |s|
    ensures s[..j][..i] == s[..i]
  {
  }

  /** The prefix one longer ends with the next element. */
  lemma TakeNext<T>(s: seq<T>, j: nat)
    requires j < |s|
    ensures |s[..j + 1]| == j + 1
    ensures s[..j + 1][..j] == s[..j]
    ensures s[..j + 1][j] == s[j]
  {
  }

  /** The whole sequence is its own longest prefix. */
  lemma TakeAll<T>(s: seq<T>)
    ensures s[..|s|] == s
  {
  }

  /** `f` applied to every element, built from the front as a loop appends. */
  function MapSeq<A, B>(xs: seq<A>, f: A -> B): (r: seq<B>)
    ensures |r| == |xs|
  {
    if xs == [] then [] else MapSeq(xs[..|xs| - 1], f) + [f(xs[|xs| - 1])]
  }

  /** Element k of the mapped sequence is `f` of element k. */
  lemma {:induction false} MapSeqAt<A, B>(xs: seq<A>, f: A -> B, k: nat)
    requires k < |xs|
    ensures MapSeq(xs, f)[k] == f(xs[k])
    decreases |xs|
  {
    var init := xs[..|xs| - 1];
    if k < |init| {
      MapSeqAt(init, f, k);
    }
  }
}

=== FILE: single_pass.dfy ===
/** The single-pass assembler of control_logic_decoder/assembler.py: signatures
    with the numeric literals deleted, a mnemonic table in which every line must
    be a declaration, and one pass over the source lines that emits each
    instruction with its immediate operand.  Label declarations are recognised
    and skipped; this assembler has no label references. */
module SinglePass {
  import opened Outcomes
  import opened Text
  import opened Patterns
  import opened ObjectFormat
  import opened Prefixes

  // ---------------------------------------------------------------------------
  // Signatures (control_logic_decoder/assembler.py:30-34)

  /** The lookup signature of a line: cleaned, then every numeric literal
      deleted.  No decimal digit is left, and every character that cannot
      belong to a literal survives, in order. */
  function Sanitize(line: string): (r: string)
    ensures forall i :: 0 <= i < |r| ==> !IsDigit(r[i])
    ensures Filter(r, NotNumeric) == Filter(Clean(line), NotNumeric)
  {
    StripNumbersKeepsNonNumeric(Clean(line));
    StripNumbers(Clean(line))
  }

  /** Sanitizing the cleaned line, as the line loop does, is sanitizing the raw line. */
  lemma SanitizeCleaned(raw: string)
    ensures Sanitize(Clean(raw)) == Sanitize(raw)
  {
    CleanIdempotent(raw);
  }

  /** The signature of a line holding a marked value `#digits` or `@digits`: the
      value contributes nothing but its marker, and the text on either side is
      sanitized on its own. */
  lemma SanitizeAroundValue(p: string, m: char, d: string, q: string)
    requires m == '#' || m == '@'
    requires forall i :: 0 <= i < |d| ==> IsDigit(d[i])
    requires q == [] || !IsWord(q[0])
    ensures Sanitize(p + [m] + d + q) ==
      StripNumbers(LStrip(Collapse(Lower(p)))) + [m] + StripNumbers(RStrip(Collapse(Lower(q))))
  {
    CleanAroundValue(p, m, d, q);
    CleanTailStart(q);
    StripAroundValue(LStrip(Collapse(Lower(p))), m, d, RStrip(Collapse(Lower(q))));
  }

  /** Two lines that differ only in the decimal value after the operand marker
      have the same signature: `lda #5` and `lda #200` both look up `lda #`. */
  lemma SanitizeIgnoresValue(p: string, m: char, d1: string, d2: string, q: string)
    requires m == '#' || m == '@'
    requires forall i :: 0 <= i < |d1| ==> IsDigit(d1[i])
    requires forall i :: 0 <= i < |d2| ==> IsDigit(d2[i])
    requires q == [] || !IsWord(q[0])
    ensures Sanitize(p + [m] + d1 + q) == Sanitize(p + [m] + d2 + q)
  {
    SanitizeAroundValue(p, m, d1, q);
    SanitizeAroundValue(p, m, d2, q);
  }

  // ---------------------------------------------------------------------------
  // The mnemonic table (control_logic_decoder/assembler.py:37-46)

  /** Loading into an empty table: every line, empty ones included, must start
      with `Instruction("...")`, whose text is sanitized and appended; the first
      line that does not match stops the load (`match.group` on `None` raises). */
  function LoadTable(file: seq<string>): (r: Loaded)
    ensures |r.entries| <= |file|
    ensures r.status.Fail? ==> r.status.error.MalformedTableEntry? && 1 <= r.status.error.line <= |file|
    decreases |file|
  {
    if file == [] then Loaded([], Pass)
    else
      var prev := LoadTable(file[..|file| - 1]);
      if prev.status.Fail? then prev
      else match DeclText(file[|file| - 1])
        case None => Loaded(prev.entries, Fail(MalformedTableEntry(|file|)))
        case Some(text) => Loaded(prev.entries + [Sanitize(text)], Pass)
  }

  /** Once a line has been rejected, the lines after it are never read. */
  lemma {:induction false} LoadTableStopsAtFailure(file: seq<string>, j: nat)
    requires j <= |file| && LoadTable(file[..j]).status.Fail?
    ensures LoadTable(file) == LoadTable(file[..j])
    decreases |file|
  {
    if j < |file| {
      assert file[..|file| - 1][..j] == file[..j];
      LoadTableStopsAtFailure(file[..|file| - 1], j);
    } else {
      assert file[..j] == file;
    }
  }

  /** Every line of the file is a declaration. */
  predicate AllDecls(file: seq<string>) {
    forall k :: 0 <= k < |file| ==> DeclText(file[k]).Some?
  }

  lemma AllDeclsSnoc(file: seq<string>)
    requires file != []
    ensures AllDecls(file) <==> AllDecls(file[..|file| - 1]) && DeclText(file[|file| - 1]).Some?
  {
    var init := file[..|file| - 1];
    assert forall k :: 0 <= k < |init| ==> init[k] == file[k];
  }

  /** Loading succeeds exactly when every line is a declaration. */
  lemma {:induction false} LoadTablePasses(file: seq<string>)
    ensures LoadTable(file).status == Pass <==> AllDecls(file)
    decreases |file|
  {
    if file != [] {
      LoadTablePasses(file[..|file| - 1]);
      AllDeclsSnoc(file);
    }
  }

  lemma PrefixAllDecls(file: seq<string>, j: nat)
    requires j <= |file| && forall k :: 0 <= k < j ==> DeclText(file[k]).Some?
    ensures AllDecls(file[..j])
  {
    var init := file[..j];
    assert forall k :: 0 <= k < |init| ==> init[k] == file[k];
  }

  lemma LoadTableLastBad(file: seq<string>)
    requires file != [] && LoadTable(file[..|file| - 1]).status == Pass
    requires DeclText(file[|file| - 1]).None?
    ensures LoadTable(file).status == Fail(MalformedTableEntry(|file|))
  {
  }

  lemma LoadTableBadPrefix(file: seq<string>, n: nat)
    requires 1 <= n <= |file| && DeclText(file[n - 1]).None?
    requires forall k :: 0 <= k < n - 1 ==> DeclText(file[k]).Some?
    ensures LoadTable(file[..n]).status == Fail(MalformedTableEntry(n))
  {
    PrefixAllDecls(file, n - 1);
    LoadTablePasses(file[..n - 1]);
    TakeNext(file, n - 1);
    LoadTableLastBad(file[..n]);
  }

  /** The load stops with the number of the first line that is not a
      declaration; an empty line counts as one. */
  lemma LoadTableFirstBadLine(file: seq<string>, n: nat)
    requires 1 <= n <= |file| && DeclText(file[n - 1]).None?
    requires forall k :: 0 <= k < n - 1 ==> DeclText(file[k]).Some?
    ensures LoadTable(file).status == Fail(MalformedTableEntry(n))
  {
    LoadTableBadPrefix(file, n);
    LoadTableStopsAtFailure(file, n);
  }

  /** The table entry of a declaration line: its sanitized text. */
  function EntryOf(line: string): string {
    match DeclText(line)
    case None => []
    case Some(text) => Sanitize(text)
  }

  /** On a file of declarations only, the load succeeds and entry k (opcode k)
      is the sanitized text of declaration k (see `MapSeqAt`). */
  lemma {:induction false} LoadTableOpcodes(file: seq<string>)
    requires AllDecls(file)
    ensures LoadTable(file) == Loaded(MapSeq(file, EntryOf), Pass)
    decreases |file|
  {
    if file != [] {
      AllDeclsSnoc(file);
      LoadTableOpcodes(file[..|file| - 1]);
    }
  }

  // ---------------------------------------------------------------------------
  // The line loop (control_logic_decoder/assembler.py:61-97)

  /** What follows the operand marker: nothing (no marker), no number at all,
      or the text of the first number match after the marker. */
  datatype Operand = NoOperand | Missing | Literal(text: string)

  /** The operand of a cleaned instruction line: the first '#' (or, failing
      that, the first '@') marks it, and `kNumberRegex.search` takes the first
      number match after the marker, however far away. */
  function OperandOf(line: string): (r: Operand)
    ensures r.NoOperand? <==> '#' !in line && '@' !in line
    ensures r.Missing? <==> OperandMarker(line) >= 0 &&
                            forall i :: OperandMarker(line) < i < |line| ==> !IsDigit(line[i])
    ensures r.Literal? ==> r.text != [] && IsDigit(r.text[0])
    ensures r.Literal? ==> forall i :: 0 <= i < |r.text| ==> !NotNumeric(r.text[i])
  {
    var at := OperandMarker(line);
    if at < 0 then NoOperand
    else match NumberSearch(line, at + 1)
      case None => Missing
      case Some(text) => Literal(text)
  }

  /** The first marker followed, past characters that are not digits, by a whole
      numeral makes that numeral the literal. */
  lemma OperandLiteral(p: string, m: char, g: string, d: string, q: string)
    requires m == '#' || m == '@'
    requires '#' !in p && '@' !in p
    requires m == '@' ==> '#' !in g + d + q
    requires forall i :: 0 <= i < |g| ==> !IsDigit(g[i])
    requires WholeLiteral(d, q)
    ensures OperandOf(p + [m] + g + d + q) == Literal(d)
  {
    assert p + [m] + g + d + q == p + [m] + (g + d + q);
    OperandMarkerAt(p, m, g + d + q);
    NumberSearchLiteral(p + [m], g, d, q);
  }

  /** `jmp @loop1` carries the literal `1`: the `@` marker takes a number too,
      found inside the name. */
  lemma OperandAtExample()
    ensures OperandOf("jmp @loop1") == Literal("1")
  {
    assert WholeLiteral("1", "");
    assert "jmp " + ['@'] + "loop" + "1" + "" == "jmp @loop1";
    OperandLiteral("jmp ", '@', "loop", "1", "");
  }

  /** What the line loop makes of one source line before it touches any state:
      blank, a label declaration, a line the mnemonic pattern rejects, or an
      instruction with its cleaned text, its signature and its operand. */
  datatype Line =
    | Blank
    | LabelLine
    | BadSyntax
    | Instr(text: string, signature: string, operand: Operand)

  /** The tests of the line loop in their order: blank after cleaning, then the
      label pattern `\w+:`, then the mnemonic pattern. */
  function Classify(raw: string): (l: Line)
    ensures l.Blank? <==> Clean(raw) == []
    ensures l.LabelLine? <==> Clean(raw) != [] && LabelDecl(Clean(raw)).Some?
    ensures l.BadSyntax? <==> Clean(raw) != [] && LabelDecl(Clean(raw)).None? && !MnemonicMatches(Clean(raw))
    ensures l.Instr? ==> l.text == Clean(raw) && l.signature == Sanitize(l.text) && l.operand == OperandOf(l.text)
  {
    var line := Clean(raw);
    if line == [] then Blank
    else if LabelDecl(line).Some? then LabelLine
    else if !MnemonicMatches(line) then BadSyntax
    else Instr(line, Sanitize(line), OperandOf(line))
  }

  /** The classified lines of a source file; line k + 1 of the file is `Lines(source)[k]`. */
  function Lines(source: seq<string>): (r: seq<Line>)
    ensures |r| == |source|
  {
    seq(|source|, k requires 0 <= k < |source| => Classify(source[k]))
  }

  /** The number of cells a line emits: an opcode cell for an instruction, and
      an operand cell after it when the line has an operand marker. */
  function Width(l: Line): nat {
    if !l.Instr? then 0 else if l.operand.NoOperand? then 1 else 2
  }

  /** The number of cells the lines emit together. */
  function Size(lines: seq<Line>): nat {
    if lines == [] then 0 else Size(lines[..|lines| - 1]) + Width(lines[|lines| - 1])
  }

  /** An operand this assembler accepts: none at all, or a base-10 literal of
      at most 255. */
  predicate OperandOk(operand: Operand) {
    operand.NoOperand? ||
    (operand.Literal? && ParseInt(operand.text).Some? && ParseInt(operand.text).value <= 255)
  }

  /** An instruction line: the signature must be in the table; the opcode cell
      `(line, opcode)` is appended, then the operand, if there is a marker, must
      be a base-10 number of at most 255 and becomes the cell `(None, value)`. */
  function Instruction(table: seq<string>, output: seq<Cell>, linenum: nat, text: string, signature: string, operand: Operand): (r: Result<seq<Cell>>)
    ensures IndexOf(table, signature).None? ==> r == Err(UnknownInstruction(linenum))
    ensures r.Ok? <==> IndexOf(table, signature).Some? && OperandOk(operand)
    ensures r.Ok? ==> |r.value| == |output| + Width(Instr(text, signature, operand)) && output < r.value
    ensures r.Ok? ==> IndexOf(table, signature).Some? &&
                      r.value[|output|] == Cell(Some(text), IndexOf(table, signature))
    ensures r.Ok? && operand.Literal? ==>
      ParseInt(operand.text).Some? && ParseInt(operand.text).value <= 255 &&
      r.value[|output| + 1] == Cell(None, ParseInt(operand.text))
    ensures IndexOf(table, signature).Some? && operand.Missing? ==> r == Err(MissingOperand(linenum))
    ensures IndexOf(table, signature).Some? && operand.Literal? && ParseInt(operand.text).None? ==>
      r == Err(BadLiteral(linenum))
    ensures IndexOf(table, signature).Some? && operand.Literal? && ParseInt(operand.text).Some? ==>
      (ParseInt(operand.text).value > 255 ==> r == Err(ValueOutOfRange(linenum)))
    ensures r.Err? && r.error.ValueOutOfRange? <==>
      IndexOf(table, signature).Some? && operand.Literal? && ParseInt(operand.text).Some? &&
      ParseInt(operand.text).value > 255
  {
    match IndexOf(table, signature)
    case None => Err(UnknownInstruction(linenum))
    case Some(opcode) =>
      var out := output + [Cell(Some(text), Some(opcode))];
      match operand
      case NoOperand => Ok(out)
      case Missing => Err(MissingOperand(linenum))
      case Literal(digits) =>
        match ParseInt(digits)
        case None => Err(BadLiteral(linenum))
        case Some(value) =>
          if value > 255 then Err(ValueOutOfRange(linenum))
          else Ok(out + [Cell(None, Some(value))])
  }

  /** The ways a source line can stop this assembler. */
  predicate StepError(e: Error) {
    e.SyntaxError? || e.UnknownInstruction? || e.MissingOperand? || e.BadLiteral? || e.ValueOutOfRange?
  }

  /** A line this assembler accepts: blank and label lines always, an
      instruction when its signature is in the table and its operand is
      acceptable, and never a line the mnemonic pattern rejects. */
  predicate LineOk(table: seq<string>, l: Line) {
    match l
    case Blank => true
    case LabelLine => true
    case BadSyntax => false
    case Instr(_, signature, operand) => IndexOf(table, signature).Some? && OperandOk(operand)
  }

  /** One iteration of the line loop on line number `linenum`: blank and label
      lines emit nothing, a line the mnemonic pattern rejects fails the
      assertion, and an instruction emits its cells. */
  function Step(table: seq<string>, output: seq<Cell>, linenum: nat, l: Line): (r: Result<seq<Cell>>)
    ensures l.Blank? || l.LabelLine? ==> r == Ok(output)
    ensures l.BadSyntax? ==> r == Err(SyntaxError(linenum))
    ensures r.Ok? <==> LineOk(table, l)
    ensures r.Ok? ==> output <= r.value && |r.value| == |output| + Width(l)
    ensures r.Err? ==> (l.BadSyntax? || l.Instr?) && StepError(r.error) && r.error.line == linenum
  {
    match l
    case Blank => Ok(output)
    case LabelLine => Ok(output)
    case BadSyntax => Err(SyntaxError(linenum))
    case Instr(text, signature, operand) => Instruction(table, output, linenum, text, signature, operand)
  }

  /** The line loop over the classified lines; the line number of `lines[k]` is k + 1. */
  function Run(table: seq<string>, lines: seq<Line>): (r: Result<seq<Cell>>)
    ensures r.Err? ==> StepError(r.error) && 1 <= r.error.line <= |lines|
    decreases |lines|
  {
    if lines == [] then Ok([])
    else
      match Run(table, lines[..|lines| - 1])
      case Err(e) => Err(e)
      case Ok(output) => Step(table, output, |lines|, lines[|lines| - 1])
  }

  /** A successful run emits exactly the cells its lines account for: one per
      instruction line and one more per instruction line with an operand. */
  lemma {:induction false} RunLength(table: seq<string>, lines: seq<Line>)
    ensures Run(table, lines).Ok? ==> |Run(table, lines).value| == Size(lines)
    decreases |lines|
  {
    if lines != [] {
      RunLength(table, lines[..|lines| - 1]);
    }
  }

  /** Once a line is rejected, the lines after it are never processed. */
  lemma {:induction false} RunStopsAtError(table: seq<string>, lines: seq<Line>, j: nat)
    requires j <= |lines| && Run(table, lines[..j]).Err?
    ensures Run(table, lines) == Run(table, lines[..j])
    decreases |lines|
  {
    if j < |lines| {
      assert lines[..|lines| - 1][..j] == lines[..j];
      RunStopsAtError(table, lines[..|lines| - 1], j);
    } else {
      assert lines[..j] == lines;
    }
  }

  /** A successful run went through every prefix successfully, and the cells of
      a prefix are a prefix of the cells. */
  lemma {:induction false} RunPrefix(table: seq<string>, lines: seq<Line>, j: nat)
    requires j <= |lines| && Run(table, lines).Ok?
    ensures Run(table, lines[..j]).Ok?
    ensures Run(table, lines[..j]).value <= Run(table, lines).value
    decreases |lines|
  {
    if j == |lines| {
      assert lines[..j] == lines;
    } else {
      var init := lines[..|lines| - 1];
      assert init[..j] == lines[..j];
      RunPrefix(table, init, j);
    }
  }

  /** The state after line j (0-based) is one step from the state before it. */
  lemma RunOneMore(table: seq<string>, lines: seq<Line>, j: nat)
    requires j < |lines| && Run(table, lines[..j]).Ok?
    ensures Run(table, lines[..j + 1]) == Step(table, Run(table, lines[..j]).value, j + 1, lines[j])
  {
    TakeNext(lines, j);
  }

  /** The line loop succeeds exactly when every line is acceptable. */
  lemma {:induction false} RunSucceeds(table: seq<string>, lines: seq<Line>)
    ensures Run(table, lines).Ok? <==> forall k :: 0 <= k < |lines| ==> LineOk(table, lines[k])
    decreases |lines|
  {
    if lines != [] {
      var n := |lines| - 1;
      var init := lines[..n];
      RunSucceeds(table, init);
      assert forall i :: 0 <= i < |init| ==> init[i] == lines[i];
      if Run(table, init).Err? {
        var k :| 0 <= k < |init| && !LineOk(table, init[k]);
        assert !LineOk(table, lines[k]);
      }
    }
  }

  /** A failed run failed at the line `n` its error names: the lines before it
      all went through, and that line's step gave the error. */
  lemma {:induction false} RunErrorLine(table: seq<string>, lines: seq<Line>, n: nat)
    requires Run(table, lines).Err? && n == Run(table, lines).error.line
    ensures 1 <= n <= |lines| && Run(table, lines[..n - 1]).Ok?
    ensures Step(table, Run(table, lines[..n - 1]).value, n, lines[n - 1]) == Run(table, lines)
    decreases |lines|
  {
    var init := lines[..|lines| - 1];
    if Run(table, init).Err? {
      RunErrorLine(table, init, n);
      TakeTake(lines, n - 1, |lines| - 1);
      assert init[n - 1] == lines[n - 1];
    }
  }

  /** The cells that instruction line j (0-based) appends. */
  lemma LineStep(table: seq<string>, lines: seq<Line>, j: nat)
    requires j < |lines| && lines[j].Instr?
    requires Run(table, lines[..j]).Ok? && Run(table, lines[..j + 1]).Ok?
    ensures |Run(table, lines[..j]).value| < |Run(table, lines[..j + 1]).value|
    ensures Run(table, lines[..j + 1]).value[|Run(table, lines[..j]).value|] ==
      Cell(Some(lines[j].text), IndexOf(table, lines[j].signature))
    ensures IndexOf(table, lines[j].signature).Some?
    ensures lines[j].operand.Literal? ==>
      |Run(table, lines[..j]).value| + 1 < |Run(table, lines[..j + 1]).value| &&
      Run(table, lines[..j + 1]).value[|Run(table, lines[..j]).value| + 1] ==
        Cell(None, ParseInt(lines[j].operand.text))
  {
    RunOneMore(table, lines, j);
  }

  /** Instruction line j (0-based) of a successful run starts at the address
      equal to the number of cells of the lines before it: its opcode cell is
      `(line, first table index of its signature)`, and a literal operand
      follows it as the cell `(None, value)`. */
  lemma LineCells(table: seq<string>, lines: seq<Line>, j: nat)
    requires j < |lines| && Run(table, lines).Ok? && lines[j].Instr?
    ensures Run(table, lines[..j]).Ok? && |Run(table, lines[..j]).value| == Size(lines[..j])
    ensures Size(lines[..j]) < |Run(table, lines).value|
    ensures Run(table, lines).value[Size(lines[..j])] == Cell(Some(lines[j].text), IndexOf(table, lines[j].signature))
    ensures IndexOf(table, lines[j].signature).Some?
    ensures lines[j].operand.Literal? ==>
      Size(lines[..j]) + 1 < |Run(table, lines).value| &&
      Run(table, lines).value[Size(lines[..j]) + 1] == Cell(None, ParseInt(lines[j].operand.text))
  {
    RunPrefix(table, lines, j + 1);
    RunPrefix(table, lines, j);
    RunLength(table, lines[..j]);
    LineStep(table, lines, j);
  }

  /** End to end: a source line whose cleaned text has a whole numeral `d` after
      its marker stores the base-10 value of `d` in the cell after its opcode. */
  lemma LiteralStored(table: seq<string>, source: seq<string>, j: nat,
                      p: string, m: char, g: string, d: string, q: string)
    requires j < |source| && Run(table, Lines(source)).Ok?
    requires Lines(source)[j].Instr? && Lines(source)[j].text == p + [m] + g + d + q
    requires m == '#' || m == '@'
    requires '#' !in p && '@' !in p
    requires m == '@' ==> '#' !in g + d + q
    requires forall i :: 0 <= i < |g| ==> !IsDigit(g[i])
    requires WholeLiteral(d, q)
    ensures Size(Lines(source)[..j]) + 1 < |Run(table, Lines(source)).value|
    ensures Run(table, Lines(source)).value[Size(Lines(source)[..j]) + 1] == Cell(None, Some(DecimalValue(d)))
  {
    LineLiteral(source, j, p, m, g, d, q);
    LiteralCell(table, Lines(source), j, d);
  }

  /** The classified source line carries the whole numeral after its marker. */
  lemma LineLiteral(source: seq<string>, j: nat, p: string, m: char, g: string, d: string, q: string)
    requires j < |source|
    requires Lines(source)[j].Instr? && Lines(source)[j].text == p + [m] + g + d + q
    requires m == '#' || m == '@'
    requires '#' !in p && '@' !in p
    requires m == '@' ==> '#' !in g + d + q
    requires forall i :: 0 <= i < |g| ==> !IsDigit(g[i])
    requires WholeLiteral(d, q)
    ensures Lines(source)[j].operand == Literal(d)
    ensures d != [] && forall i :: 0 <= i < |d| ==> IsDigit(d[i])
  {
    OperandLiteral(p, m, g, d, q);
  }

  /** The cell after the opcode of a line with the numeral `d` holds its value. */
  lemma LiteralCell(table: seq<string>, lines: seq<Line>, j: nat, d: string)
    requires j < |lines| && Run(table, lines).Ok?
    requires lines[j].Instr? && lines[j].operand == Literal(d)
    requires d != [] && forall i :: 0 <= i < |d| ==> IsDigit(d[i])
    ensures Size(lines[..j]) + 1 < |Run(table, lines).value|
    ensures Run(table, lines).value[Size(lines[..j]) + 1] == Cell(None, Some(DecimalValue(d)))
  {
    LineCells(table, lines, j);
  }

  /** Cell k is an opcode cell `(line, opcode)` with an opcode inside the table,
      or an operand cell `(None, value)` with a value in 0..255 directly after
      an opcode cell. */
  predicate CellOk(table: seq<string>, output: seq<Cell>, k: int)
    requires 0 <= k < |output| && output[k].value.Some?
  {
    if output[k].annotation.Some? then output[k].value.value < |table|
    else output[k].value.value <= 255 && 0 < k && output[k - 1].annotation.Some?
  }

  /** Every cell of a run is resolved, and is an opcode cell or the operand
      cell of the opcode cell before it. */
  predicate CellsOk(table: seq<string>, output: seq<Cell>) {
    && (forall k :: 0 <= k < |output| ==> output[k].value.Some?)
    && (forall k :: 0 <= k < |output| ==> CellOk(table, output, k))
  }

  lemma CellsSnoc(table: seq<string>, output: seq<Cell>, c: Cell)
    requires CellsOk(table, output)
    requires c.value.Some?
    requires c.annotation.Some? ==> c.value.value < |table|
    requires c.annotation.None? ==> c.value.value <= 255 && output != [] && output[|output| - 1].annotation.Some?
    ensures CellsOk(table, output + [c])
  {
    var out := output + [c];
    forall k | 0 <= k < |out|
      ensures out[k].value.Some? && CellOk(table, out, k)
    {
      if k < |output| {
        assert CellOk(table, output, k);
        assert out[k] == output[k];
        if 0 < k { assert out[k - 1] == output[k - 1]; }
      } else if c.annotation.None? {
        assert out[k - 1] == output[|output| - 1];
      }
    }
  }

  lemma StepCells(table: seq<string>, output: seq<Cell>, linenum: nat, l: Line)
    requires CellsOk(table, output)
    ensures Step(table, output, linenum, l).Ok? ==> CellsOk(table, Step(table, output, linenum, l).value)
  {
    if l.Instr? && IndexOf(table, l.signature).Some? {
      var opcode := IndexOf(table, l.signature);
      var out := output + [Cell(Some(l.text), opcode)];
      CellsSnoc(table, output, Cell(Some(l.text), opcode));
      if l.operand.Literal? && ParseInt(l.operand.text).Some? && ParseInt(l.operand.text).value <= 255 {
        CellsSnoc(table, out, Cell(None, ParseInt(l.operand.text)));
      }
    }
  }

  /** Every state of the line loop is made of resolved cells. */
  lemma {:induction false} RunCells(table: seq<string>, lines: seq<Line>)
    ensures Run(table, lines).Ok? ==> CellsOk(table, Run(table, lines).value)
    decreases |lines|
  {
    if lines != [] {
      var init := lines[..|lines| - 1];
      RunCells(table, init);
      if Run(table, init).Ok? {
        StepCells(table, Run(table, init).value, |lines|, lines[|lines| - 1]);
      }
    }
  }

  /** With at most 256 table entries, every cell holds a byte. */
  lemma CellsBytes(table: seq<string>, output: seq<Cell>)
    requires CellsOk(table, output) && |table| <= 256
    ensures forall k :: 0 <= k < |output| ==> output[k].value.Some? && output[k].value.value < 256
  {
    forall k | 0 <= k < |output|
      ensures output[k].value.Some? && output[k].value.value < 256
    {
      assert CellOk(table, output, k);
    }
  }

  /** With at most 256 table entries and fewer than 256 cells, each object-file
      line reads back as its address, its value and its annotation. */
  lemma EmittedLines(table: seq<string>, lines: seq<Line>)
    requires Run(table, lines).Ok? && |table| <= 256 && |Run(table, lines).value| < 256
    ensures forall k :: 0 <= k < |Run(table, lines).value| ==> Run(table, lines).value[k].value.Some?
    ensures forall k :: 0 <= k < |Run(table, lines).value| ==>
      DecodeLine(FormatLine(k, Run(table, lines).value[k])) ==
        Some((k, Run(table, lines).value[k].value.value, Annotation(Run(table, lines).value[k])))
  {
    RunCells(table, lines);
    CellsBytes(table, Run(table, lines).value);
    FormatLinesRoundTrip(Run(table, lines).value);
  }

  /** The body of the line loop on one classified line. */
  method ProcessLine(table: seq<string>, output: seq<Cell>, linenum: nat, l: Line) returns (r: Result<seq<Cell>>)
    ensures r == Step(table, output, linenum, l)
  {
    match l {
      case Blank =>
        r := Ok(output);
      case LabelLine =>
        r := Ok(output);
      case BadSyntax =>
        r := Err(SyntaxError(linenum));
      case Instr(text, signature, operand) =>
        var opcode := IndexOf(table, signature);
        if opcode.None? {
          return Err(UnknownInstruction(linenum));
        }
        var cells := output + [Cell(Some(text), opcode)];
        match operand {
          case NoOperand =>
          case Missing =>
            return Err(MissingOperand(linenum));
          case Literal(digits) =>
            var value := ParseInt(digits);
            if value.None? {
              return Err(BadLiteral(linenum));
            }
            if value.value > 255 {
              return Err(ValueOutOfRange(linenum));
            }
            cells := cells + [Cell(None, value)];
        }
        r := Ok(cells);
    }
  }

  /** The line loop of `Assemble` over the classified lines of the source: it
      computes `Run`, stopping at the first line that is rejected. */
  method LineLoop(table: seq<string>, lines: seq<Line>) returns (r: Result<seq<Cell>>)
    ensures r == Run(table, lines)
  {
    var output: seq<Cell> := [];
    var i := 0;
    while i < |lines|
      invariant 0 <= i <= |lines|
      invariant Run(table, lines[..i]) == Ok(output)
    {
      RunOneMore(table, lines, i);
      var next := ProcessLine(table, output, i + 1, lines[i]);
      if next.Err? {
        RunStopsAtError(table, lines, i + 1);
        TakeAll(lines);
        return next;
      }
      output := next.value;
      i := i + 1;
    }
    TakeAll(lines);
    r := Ok(output);
  }

  // ---------------------------------------------------------------------------
  // The assembler (control_logic_decoder/assembler.py:37-46, 54-110)

  /** The module state of control_logic_decoder/assembler.py: the global
      mnemonic table. */
  class Assembler {
    /** `s_mnemonics`: position k holds the signature of opcode k. */
    var mnemonics: seq<string>

    constructor()
      ensures mnemonics == []
    {
      mnemonics := [];
    }

    /** `LoadMnemonics`: a table that is already loaded is kept; otherwise the
        declaration file is read line by line into it. */
    method LoadMnemonics(file: seq<string>) returns (status: Outcome)
      modifies this
      ensures old(mnemonics) != [] ==> mnemonics == old(mnemonics) && status == Pass
      ensures old(mnemonics) == [] ==> Loaded(mnemonics, status) == LoadTable(file)
    {
      if mnemonics != [] {
        return Pass;
      }
      var i := 0;
      while i < |file|
        invariant 0 <= i <= |file|
        invariant LoadTable(file[..i]) == Loaded(mnemonics, Pass)
      {
        TakeNext(file, i);
        match DeclText(file[i]) {
          case None =>
            LoadTableStopsAtFailure(file, i + 1);
            return Fail(MalformedTableEntry(i + 1));
          case Some(text) =>
            mnemonics := mnemonics + [Sanitize(text)];
        }
        i := i + 1;
      }
      TakeAll(file);
      status := Pass;
    }

    /** `Assemble`: load the table, run the line loop, and produce the lines of
        the object file. */
    method Assemble(tableFile: seq<string>, source: seq<string>) returns (r: Result<seq<string>>)
      modifies this
      ensures old(mnemonics) != [] ==> mnemonics == old(mnemonics)
      ensures old(mnemonics) == [] ==> mnemonics == LoadTable(tableFile).entries
      ensures old(mnemonics) == [] && LoadTable(tableFile).status.Fail? ==>
        r == Err(LoadTable(tableFile).status.error)
      ensures !(old(mnemonics) == [] && LoadTable(tableFile).status.Fail?) ==>
        (r.Err? <==> Run(mnemonics, Lines(source)).Err?) &&
        (r.Err? ==> r.error == Run(mnemonics, Lines(source)).error)
      ensures r.Ok? ==> Run(mnemonics, Lines(source)).Ok?
      ensures r.Ok? ==> |r.value| == |Run(mnemonics, Lines(source)).value|
      ensures r.Ok? ==> CellsOk(mnemonics, Run(mnemonics, Lines(source)).value)
      ensures r.Ok? ==> forall k :: 0 <= k < |r.value| ==>
        r.value[k] == FormatLine(k, Run(mnemonics, Lines(source)).value[k])
    {
      var status := LoadMnemonics(tableFile);
      if status.Fail? {
        return Err(status.error);
      }
      var table := mnemonics;
      var lines := Lines(source);
      var cells := LineLoop(table, lines);
      if cells.Err? {
        return Err(cells.error);
      }
      RunCells(table, lines);
      var text := WriteOutput(cells.value);
      r := Ok(text);
    }
  }
}

=== FILE: text.dfy ===
/** Character classes and the line normaliser `Clean` shared by both assemblers
    (tools/assembler.py:36-41 and control_logic_decoder/assembler.py:22-27 are the
    same function).  Character classes follow Python 2 byte strings: `\s` and
    `str.strip()` use the six ASCII whitespace characters, `str.lower()` folds
    only 'A'..'Z', and `\w` is [A-Za-z0-9_]. */
module Text {
  import opened Prefixes

  predicate IsSpace(c: char) {
    c == ' ' || c == '\t' || c == '\n' || c == '\r' || c == '\U{B}' || c == '\U{C}'
  }

  predicate IsUpper(c: char) { 'A' <= c <= 'Z' }

  predicate IsLetter(c: char) { 'A' <= c <= 'Z' || 'a' <= c <= 'z' }

  predicate IsDigit(c: char) { '0' <= c <= '9' }

  /** The class `\w`. */
  predicate IsWord(c: char) { IsLetter(c) || IsDigit(c) || c == '_' }

  function ToLower(c: char): (d: char)
    ensures !IsUpper(d)
    ensures IsSpace(d) <==> IsSpace(c)
    ensures IsWord(d) <==> IsWord(c)
    ensures IsDigit(d) <==> IsDigit(c)
    ensures IsLetter(d) <==> IsLetter(c)
    ensures !IsUpper(c) ==> d == c
  {
    if IsUpper(c) then (c as int + 32) as char else c
  }

  /** `str.lower()` on a Python 2 byte string: every ASCII capital becomes its
      small letter, 32 code points further on, and nothing else changes. */
  function Lower(s: string): (r: string)
    ensures |r| == |s|
    ensures forall i :: 0 <= i < |r| ==> !IsUpper(r[i])
    ensures forall i :: 0 <= i < |s| && !IsUpper(s[i]) ==> r[i] == s[i]
    ensures forall i :: 0 <= i < |s| && IsUpper(s[i]) ==> r[i] as int == s[i] as int + 32
  {
    seq(|s|, i requires 0 <= i < |s| => ToLower(s[i]))
  }

  /** `str.lstrip()`: the longest suffix of `s` that does not start with whitespace. */
  function LStrip(s: string): (r: string)
    ensures |r| <= |s| && r == s[|s| - |r|..]
    ensures r == [] || !IsSpace(r[0])
    ensures forall i :: 0 <= i < |s| - |r| ==> IsSpace(s[i])
  {
    if s != [] && IsSpace(s[0]) then LStrip(s[1..]) else s
  }

  /** `str.rstrip()`: the longest prefix of `s` that does not end with whitespace. */
  function RStrip(s: string): (r: string)
    ensures |r| <= |s| && r == s[..|r|]
    ensures r == [] || !IsSpace(r[|r| - 1])
    ensures forall i :: |r| <= i < |s| ==> IsSpace(s[i])
  {
    if s != [] && IsSpace(s[|s| - 1]) then RStrip(s[..|s| - 1]) else s
  }

  /** What one character of the input contributes to `re.sub(r'\s+', " ", s)`:
      itself unless it is whitespace, one space when it starts a whitespace run,
      nothing inside a run. */
  function CollapseHead(c: char, inRun: bool): string {
    if !IsSpace(c) then [c] else if inRun then [] else " "
  }

  /** The scanner behind `re.sub(r'\s+', " ", s)`: `inRun` says that the character
      before `s` was whitespace, whose run has already produced its one space. */
  function CollapseFrom(s: string, inRun: bool): (r: string)
    ensures s != [] && !IsSpace(s[0]) ==> r != [] && r[0] == s[0]
  {
    if s == [] then [] else CollapseHead(s[0], inRun) + CollapseFrom(s[1..], IsSpace(s[0]))
  }

  /** `re.sub(r'\s+', " ", s)`: every maximal run of whitespace becomes one space. */
  function Collapse(s: string): string {
    CollapseFrom(s, false)
  }

  /** The collapsed text holds no whitespace other than ' ', and every other
      character of it comes from `s`. */
  lemma {:induction false} CollapseChars(s: string, inRun: bool)
    ensures forall i :: 0 <= i < |CollapseFrom(s, inRun)| ==>
      CollapseFrom(s, inRun)[i] == ' ' || (!IsSpace(CollapseFrom(s, inRun)[i]) && CollapseFrom(s, inRun)[i] in s)
  {
    if s != [] {
      var h := CollapseHead(s[0], inRun);
      var rt := CollapseFrom(s[1..], IsSpace(s[0]));
      var r := CollapseFrom(s, inRun);
      CollapseChars(s[1..], IsSpace(s[0]));
      forall i | 0 <= i < |r|
        ensures r[i] == ' ' || (!IsSpace(r[i]) && r[i] in s)
      {
        if i >= |h| {
          assert r[i] == rt[i - |h|];
          assert rt[i - |h|] == ' ' || rt[i - |h|] in s[1..];
        }
      }
    }
  }

  /** The collapsed text never holds two spaces in a row, and does not start
      with a space when the input starts inside a run. */
  lemma {:induction false} CollapseSingleSpaces(s: string, inRun: bool)
    ensures forall i :: 0 <= i < |CollapseFrom(s, inRun)| - 1 ==>
      CollapseFrom(s, inRun)[i] == ' ' ==> CollapseFrom(s, inRun)[i + 1] != ' '
    ensures inRun && CollapseFrom(s, inRun) != [] ==> CollapseFrom(s, inRun)[0] != ' '
  {
    if s != [] {
      var h := CollapseHead(s[0], inRun);
      var rt := CollapseFrom(s[1..], IsSpace(s[0]));
      var r := CollapseFrom(s, inRun);
      CollapseSingleSpaces(s[1..], IsSpace(s[0]));
      assert r == h + rt;
      forall i | 0 <= i < |r| - 1
        ensures r[i] == ' ' ==> r[i + 1] != ' '
      {
        assert r[i + 1] == rt[i + 1 - |h|];
        if i >= |h| { assert r[i] == rt[i - |h|]; }
      }
    }
  }

  /** Lower case, whitespace runs collapsed to one space, trimmed. */
  function Clean(s: string): string {
    RStrip(LStrip(Collapse(Lower(s))))
  }

  /** No upper case, no whitespace but ' ', never two spaces in a row. */
  predicate Canonical(s: string) {
    && (forall i :: 0 <= i < |s| ==> !IsUpper(s[i]) && (IsSpace(s[i]) ==> s[i] == ' '))
    && (forall i :: 0 <= i < |s| - 1 ==> s[i] == ' ' ==> s[i + 1] != ' ')
  }

  /** What `Clean` promises about its result: canonical and trimmed. */
  predicate IsClean(s: string) {
    Canonical(s) && (s != [] ==> s[0] != ' ' && s[|s| - 1] != ' ')
  }

  /** The non-whitespace characters of `s`, in order. */
  function NonSpace(s: string): string {
    if s == [] then []
    else if IsSpace(s[0]) then NonSpace(s[1..])
    else [s[0]] + NonSpace(s[1..])
  }

  lemma CollapseLowerCanonical(s: string)
    ensures Canonical(Collapse(Lower(s)))
  {
    var l := Lower(s);
    var c := Collapse(l);
    CollapseChars(l, false);
    CollapseSingleSpaces(l, false);
    forall i | 0 <= i < |c|
      ensures !IsUpper(c[i])
    {
      if c[i] != ' ' {
        var j :| 0 <= j < |l| && l[j] == c[i];
      }
    }
  }

  lemma SliceCanonical(s: string, i: nat, j: nat)
    requires Canonical(s) && i <= j <= |s|
    ensures Canonical(s[i..j])
  {
    var t := s[i..j];
    assert forall k :: 0 <= k < |t| ==> t[k] == s[i + k];
  }

  /** Trimming a canonical text leaves it canonical, with no space at either end. */
  lemma StripCanonical(c: string)
    requires Canonical(c)
    ensures IsClean(RStrip(LStrip(c)))
  {
    var t := LStrip(c);
    var r := RStrip(t);
    SliceCanonical(c, |c| - |t|, |c|);
    SliceCanonical(t, 0, |r|);
    if r != [] {
      assert r[0] == t[0];
    }
  }

  /** Every cleaned line is lower case, trimmed, and free of whitespace runs. */
  lemma CleanIsClean(s: string)
    ensures IsClean(Clean(s))
  {
    CollapseLowerCanonical(s);
    StripCanonical(Collapse(Lower(s)));
  }

  lemma {:induction false} CollapseOfCanonical(s: string, inRun: bool)
    requires forall i :: 0 <= i < |s| ==> IsSpace(s[i]) ==> s[i] == ' '
    requires forall i :: 0 <= i < |s| - 1 ==> s[i] == ' ' ==> s[i + 1] != ' '
    requires inRun ==> s == [] || s[0] != ' '
    ensures CollapseFrom(s, inRun) == s
  {
    if s != [] {
      assert forall i :: 0 <= i < |s[1..]| ==> s[1..][i] == s[i + 1];
      CollapseOfCanonical(s[1..], IsSpace(s[0]));
      assert s == [s[0]] + s[1..];
    }
  }

  lemma CleanOfClean(s: string)
    requires IsClean(s)
    ensures Clean(s) == s
  {
    assert Lower(s) == s;
    CollapseOfCanonical(s, false);
    if s != [] {
      assert !IsSpace(s[0]) && !IsSpace(s[|s| - 1]);
    }
  }

  /** `Clean` is idempotent: a cleaned line is left as it is. */
  lemma CleanIdempotent(s: string)
    ensures Clean(Clean(s)) == Clean(s)
  {
    CleanIsClean(s);
    CleanOfClean(Clean(s));
  }

  lemma {:induction false} NonSpaceAppend(a: string, b: string)
    ensures NonSpace(a + b) == NonSpace(a) + NonSpace(b)
  {
    if a == [] {
      assert a + b == b;
    } else {
      assert (a + b)[0] == a[0] && (a + b)[1..] == a[1..] + b;
      NonSpaceAppend(a[1..], b);
    }
  }

  lemma {:induction false} NonSpaceAllSpace(s: string)
    requires forall i :: 0 <= i < |s| ==> IsSpace(s[i])
    ensures NonSpace(s) == []
  {
    if s != [] {
      NonSpaceAllSpace(s[1..]);
    }
  }

  lemma {:induction false} NonSpaceLStrip(s: string)
    ensures NonSpace(LStrip(s)) == NonSpace(s)
    decreases |s|
  {
    if s != [] && IsSpace(s[0]) {
      NonSpaceLStrip(s[1..]);
    }
  }

  lemma NonSpaceRStrip(s: string)
    ensures NonSpace(RStrip(s)) == NonSpace(s)
  {
    var r := RStrip(s);
    assert s == r + s[|r|..];
    NonSpaceAppend(r, s[|r|..]);
    NonSpaceAllSpace(s[|r|..]);
  }

  lemma {:induction false} NonSpaceCollapse(s: string, inRun: bool)
    ensures NonSpace(CollapseFrom(s, inRun)) == NonSpace(s)
  {
    if s != [] {
      var rt := CollapseFrom(s[1..], IsSpace(s[0]));
      var h := CollapseHead(s[0], inRun);
      NonSpaceCollapse(s[1..], IsSpace(s[0]));
      NonSpaceAppend(h, rt);
      if !IsSpace(s[0]) {
        assert NonSpace(h) == [s[0]] by { assert h[1..] == []; }
      } else if !inRun {
        assert NonSpace(h) == [] by { assert h[1..] == []; }
      }
    }
  }

  /** `Clean` neither drops nor adds any character other than whitespace:
      the non-whitespace characters of the result are those of the line, lower-cased. */
  lemma CleanKeepsNonSpace(s: string)
    ensures NonSpace(Clean(s)) == NonSpace(Lower(s))
  {
    var c := Collapse(Lower(s));
    NonSpaceCollapse(Lower(s), false);
    NonSpaceLStrip(c);
    NonSpaceRStrip(LStrip(c));
  }

  lemma LowerAppend(a: string, b: string)
    ensures Lower(a + b) == Lower(a) + Lower(b)
  {
  }

  lemma {:induction false} LStripAppend(a: string, b: string)
    requires b == [] || !IsSpace(b[0])
    ensures LStrip(a + b) == LStrip(a) + b
  {
    if a == [] {
      assert a + b == b;
    } else {
      assert (a + b)[0] == a[0] && (a + b)[1..] == a[1..] + b;
      if IsSpace(a[0]) {
        LStripAppend(a[1..], b);
      }
    }
  }

  lemma {:induction false} RStripAppend(a: string, b: string)
    requires a != [] && !IsSpace(a[|a| - 1])
    ensures RStrip(a + b) == a + RStrip(b)
    decreases |b|
  {
    if b == [] {
      assert a + b == a;
    } else {
      var s := a + b;
      assert s[|s| - 1] == b[|b| - 1];
      if IsSpace(b[|b| - 1]) {
        assert s[..|s| - 1] == a + b[..|b| - 1];
        RStripAppend(a, b[..|b| - 1]);
      }
    }
  }

  /** Whitespace runs never cross a non-whitespace character. */
  lemma {:induction false} CollapseAppend(a: string, b: string, inRun: bool)
    requires b == [] || !IsSpace(b[0])
    ensures CollapseFrom(a + b, inRun) == CollapseFrom(a, inRun) + Collapse(b)
  {
    if a == [] {
      assert a + b == b;
    } else {
      assert (a + b)[0] == a[0] && (a + b)[1..] == a[1..] + b;
      CollapseAppend(a[1..], b, IsSpace(a[0]));
    }
  }

  lemma {:induction false} CollapseNoSpace(w: string, b: string, inRun: bool)
    requires forall i :: 0 <= i < |w| ==> !IsSpace(w[i])
    requires w != []
    ensures CollapseFrom(w + b, inRun) == w + CollapseFrom(b, false)
  {
    assert (w + b)[0] == w[0] && (w + b)[1..] == w[1..] + b;
    if |w| > 1 {
      CollapseNoSpace(w[1..], b, false);
    }
    assert w == [w[0]] + w[1..];
  }

  /** Inside a whitespace run, further whitespace produces nothing. */
  lemma {:induction false} CollapseSkipRun(w: string, b: string)
    requires forall i :: 0 <= i < |w| ==> IsSpace(w[i])
    ensures CollapseFrom(w + b, true) == CollapseFrom(b, true)
    decreases |w|
  {
    if w == [] {
      assert w + b == b;
    } else {
      assert (w + b)[0] == w[0] && (w + b)[1..] == w[1..] + b;
      CollapseSkipRun(w[1..], b);
    }
  }

  /** After a non-whitespace character the scanner is outside any run. */
  lemma {:induction false} CollapseSplit(a: string, x: string, inRun: bool)
    requires a != [] && !IsSpace(a[|a| - 1])
    ensures CollapseFrom(a + x, inRun) == CollapseFrom(a, inRun) + CollapseFrom(x, false)
    decreases |a|
  {
    assert (a + x)[0] == a[0] && (a + x)[1..] == a[1..] + x;
    var h := CollapseHead(a[0], inRun);
    if |a| == 1 {
      assert a[1..] + x == x;
      assert CollapseFrom(a, inRun) == h + CollapseFrom([], false);
    } else {
      CollapseSplit(a[1..], x, IsSpace(a[0]));
      Concat3(h, CollapseFrom(a[1..], IsSpace(a[0])), CollapseFrom(x, false));
    }
  }

  /** `re.sub(r'\s+', " ", s)` turns a whitespace run between non-whitespace
      characters (or the ends of the line) into exactly one space. */
  lemma CollapseRun(a: string, w: string, b: string)
    requires a == [] || !IsSpace(a[|a| - 1])
    requires w != [] && forall i :: 0 <= i < |w| ==> IsSpace(w[i])
    requires b == [] || !IsSpace(b[0])
    ensures Collapse(a + w + b) == Collapse(a) + " " + Collapse(b)
  {
    assert (w + b)[0] == w[0] && (w + b)[1..] == w[1..] + b;
    CollapseSkipRun(w[1..], b);
    assert CollapseFrom(b, true) == CollapseFrom(b, false);
    assert Collapse(w + b) == " " + Collapse(b);
    Concat3(a, w, b);
    if a == [] {
      assert a + (w + b) == w + b;
    } else {
      CollapseSplit(a, w + b, false);
    }
  }

  /** Two words separated by whitespace clean to the lower-cased words joined by
      one space: `LDA \t #5` cleans to `lda #5`. */
  lemma CleanSeparated(a: string, w: string, b: string)
    requires a != [] && forall i :: 0 <= i < |a| ==> !IsSpace(a[i])
    requires w != [] && forall i :: 0 <= i < |w| ==> IsSpace(w[i])
    requires b != [] && forall i :: 0 <= i < |b| ==> !IsSpace(b[i])
    ensures Clean(a + w + b) == Lower(a) + " " + Lower(b)
  {
    var la, lw, lb := Lower(a), Lower(w), Lower(b);
    LowerAppend(a, w);
    LowerAppend(a + w, b);
    CollapseRun(la, lw, lb);
    CollapseNoSpace(la, [], false);
    CollapseNoSpace(lb, [], false);
    assert la + [] == la && lb + [] == lb;
    var x := la + " " + lb;
    assert x[0] == la[0] && x[|x| - 1] == lb[|lb| - 1];
  }

  /** Collapsing around a word that holds no whitespace leaves the word as it is. */
  lemma CollapseAround(a: string, w: string, b: string)
    requires w != [] && forall i :: 0 <= i < |w| ==> !IsSpace(w[i])
    ensures Collapse(a + (w + b)) == Collapse(a) + (w + Collapse(b))
  {
    CollapseAppend(a, w + b, false);
    CollapseNoSpace(w, b, false);
  }

  /** Trimming around a word that holds no whitespace trims only the two sides. */
  lemma StripAround(a: string, w: string, b: string)
    requires w != [] && !IsSpace(w[0]) && !IsSpace(w[|w| - 1])
    ensures RStrip(LStrip(a + (w + b))) == LStrip(a) + w + RStrip(b)
  {
    var la := LStrip(a);
    LStripAppend(a, w + b);
    Concat3(la, w, b);
    LastOfAppend(la, w);
    RStripAppend(la + w, b);
  }

  /** Cleaning a line around a word that holds no whitespace: the word is only
      lower-cased, and the two sides are cleaned independently of it. */
  lemma CleanAround(p: string, w: string, q: string)
    requires w != [] && forall i :: 0 <= i < |w| ==> !IsSpace(w[i])
    ensures Clean(p + w + q) == LStrip(Collapse(Lower(p))) + Lower(w) + RStrip(Collapse(Lower(q)))
  {
    var lp, lw, lq := Lower(p), Lower(w), Lower(q);
    LowerAppend(p + w, q);
    LowerAppend(p, w);
    assert Lower(p + w + q) == lp + (lw + lq);
    CollapseAround(lp, lw, lq);
    StripAround(Collapse(lp), lw, Collapse(lq));
  }

  /** The cleaned text after a word still starts with a character that is not
      a word character. */
  lemma CleanTailStart(q: string)
    requires q == [] || !IsWord(q[0])
    ensures RStrip(Collapse(Lower(q))) == [] || !IsWord(RStrip(Collapse(Lower(q)))[0])
  {
    var lq := Lower(q);
    if q != [] {
      assert !IsWord(lq[0]);
      assert Collapse(lq)[0] == ' ' || Collapse(lq)[0] == lq[0];
    }
  }
}

=== FILE: two_pass.dfy ===
/** The two-pass assembler of tools/assembler.py: signatures with label names
    masked, a mnemonic table loaded once into a global list, pass one over the
    source lines with label bookkeeping, the fixup pass, and emission. */
module TwoPass {
  import opened Outcomes
  import opened Text
  import opened Patterns
  import opened ObjectFormat
  import opened Prefixes

  /** Where the scan of `re.sub("(?<=@)\w+", "@", s)` stands: after an ordinary
      character, directly after an '@', or inside a name already replaced. */
  datatype Scan = Plain | AfterAt | InName

  /** What the scan outputs for character `c` in state `st`: the first character
      of a name after '@' becomes '@', the rest of the name nothing, and any
      other character itself. */
  function Emit(c: char, st: Scan): string {
    if IsWord(c) && st == AfterAt then "@"
    else if IsWord(c) && st == InName then ""
    else [c]
  }

  /** The state after character `c`. */
  function Next(c: char, st: Scan): Scan {
    if IsWord(c) && st != Plain then InName
    else if c == '@' then AfterAt
    else Plain
  }

  /** `re.sub("(?<=@)\w+", "@", s)`: every run of word characters that directly
      follows an '@' becomes a single '@'; everything else is copied. */
  function ReplaceNames(s: string, st: Scan): (r: string)
    ensures st != Plain ==> r == [] || !IsWord(r[0])
    ensures st == Plain && s != [] ==> r != [] && r[0] == s[0]
    decreases |s|
  {
    if s == [] then [] else Emit(s[0], st) + ReplaceNames(s[1..], Next(s[0], st))
  }

  /** The replacement adds no digit. */
  lemma {:induction false} ReplaceNamesNoDigits(s: string, st: Scan)
    requires forall i :: 0 <= i < |s| ==> !IsDigit(s[i])
    ensures forall i :: 0 <= i < |ReplaceNames(s, st)| ==> !IsDigit(ReplaceNames(s, st)[i])
    decreases |s|
  {
    if s != [] {
      var r := ReplaceNames(s, st);
      var e := Emit(s[0], st);
      var rest := ReplaceNames(s[1..], Next(s[0], st));
      ReplaceNamesNoDigits(s[1..], Next(s[0], st));
      assert r == e + rest;
      assert forall i :: 0 <= i < |rest| ==> r[|e| + i] == rest[i];
    }
  }

  /** After the replacement no '@' is followed by a word character. */
  lemma {:induction false} ReplaceNamesNoNameAfterAt(s: string, st: Scan)
    ensures forall i :: 0 <= i < |ReplaceNames(s, st)| - 1 ==>
      ReplaceNames(s, st)[i] == '@' ==> !IsWord(ReplaceNames(s, st)[i + 1])
    decreases |s|
  {
    if s != [] {
      var r := ReplaceNames(s, st);
      var e := Emit(s[0], st);
      var rest := ReplaceNames(s[1..], Next(s[0], st));
      ReplaceNamesNoNameAfterAt(s[1..], Next(s[0], st));
      assert r == e + rest;
      assert forall i :: 0 <= i < |rest| ==> r[|e| + i] == rest[i];
    }
  }

  /** Text without an '@' is copied unchanged. */
  lemma {:induction false} ReplaceNamesNoAt(s: string)
    requires forall i :: 0 <= i < |s| ==> s[i] != '@'
    ensures ReplaceNames(s, Plain) == s
    decreases |s|
  {
    if s != [] {
      assert forall i :: 0 <= i < |s[1..]| ==> s[1..][i] == s[i + 1];
      ReplaceNamesNoAt(s[1..]);
    }
  }

  /** The lookup signature of a line: cleaned, numeric literals deleted, and the
      name after every '@' reduced to '@'.  A cleaned line without an '@' only
      loses its literals. */
  function Sanitize(line: string): (r: string)
    ensures forall i :: 0 <= i < |r| ==> !IsDigit(r[i])
    ensures forall i :: 0 <= i < |r| - 1 ==> r[i] == '@' ==> !IsWord(r[i + 1])
    ensures (forall i :: 0 <= i < |Clean(line)| ==> Clean(line)[i] != '@') ==> r == StripNumbers(Clean(line))
  {
    ReplaceNamesNoDigits(StripNumbers(Clean(line)), Plain);
    ReplaceNamesNoNameAfterAt(StripNumbers(Clean(line)), Plain);
    if forall i :: 0 <= i < |Clean(line)| ==> Clean(line)[i] != '@' then
      StripNumbersNoNew(Clean(line), '@');
      ReplaceNamesNoAt(StripNumbers(Clean(line)));
      ReplaceNames(StripNumbers(Clean(line)), Plain)
    else
      ReplaceNames(StripNumbers(Clean(line)), Plain)
  }

  /** A string starting with a non-word character is scanned alike from every state. */
  lemma ReplaceNamesFresh(x: string, st: Scan)
    requires x == [] || !IsWord(x[0])
    ensures ReplaceNames(x, st) == ReplaceNames(x, Plain)
  {
  }

  /** The scan of `a + x` starts with the output for `a[0]`. */
  lemma ReplaceNamesCons(a: string, x: string, st: Scan)
    requires a != []
    ensures ReplaceNames(a + x, st) == Emit(a[0], st) + ReplaceNames(a[1..] + x, Next(a[0], st))
  {
    assert (a + x)[0] == a[0] && (a + x)[1..] == a[1..] + x;
  }

  /** The rest of a name is dropped. */
  lemma {:induction false} ReplaceNamesSkipName(w: string, b: string)
    requires forall i :: 0 <= i < |w| ==> IsWord(w[i])
    requires b == [] || !IsWord(b[0])
    ensures ReplaceNames(w + b, InName) == ReplaceNames(b, Plain)
    decreases |w|
  {
    if w == [] {
      assert w + b == b;
      ReplaceNamesFresh(b, InName);
    } else {
      ReplaceNamesCons(w, b, InName);
      ReplaceNamesSkipName(w[1..], b);
    }
  }

  lemma ReplaceNamesAtSign(y: string, st: Scan)
    ensures ReplaceNames("@" + y, st) == "@" + ReplaceNames(y, AfterAt)
  {
    var x := "@" + y;
    assert x[0] == '@' && x[1..] == y;
  }

  /** A name after '@' collapses to one '@'. */
  lemma ReplaceNamesAt(w: string, b: string, st: Scan)
    requires w != [] && forall i :: 0 <= i < |w| ==> IsWord(w[i])
    requires b == [] || !IsWord(b[0])
    ensures ReplaceNames("@" + w + b, st) == "@@" + ReplaceNames(b, Plain)
  {
    Concat3("@", w, b);
    ReplaceNamesAtSign(w + b, st);
    ReplaceNamesCons(w, b, AfterAt);
    ReplaceNamesSkipName(w[1..], b);
  }

  lemma ReplaceNamesAppendStep(a: string, x: string, st: Scan)
    requires a != []
    requires ReplaceNames(a[1..] + x, Next(a[0], st)) ==
      ReplaceNames(a[1..], Next(a[0], st)) + ReplaceNames(x, Plain)
    ensures ReplaceNames(a + x, st) == ReplaceNames(a, st) + ReplaceNames(x, Plain)
  {
    ReplaceNamesCons(a, x, st);
    Concat3(Emit(a[0], st), ReplaceNames(a[1..], Next(a[0], st)), ReplaceNames(x, Plain));
  }

  /** The replacement works piecewise across a character that is not a word
      character. */
  lemma {:induction false} ReplaceNamesAppend(a: string, x: string, st: Scan)
    requires x != [] && !IsWord(x[0])
    ensures ReplaceNames(a + x, st) == ReplaceNames(a, st) + ReplaceNames(x, Plain)
    decreases |a|
  {
    if a == [] {
      assert a + x == x;
      ReplaceNamesFresh(x, st);
    } else {
      ReplaceNamesAppend(a[1..], x, Next(a[0], st));
      ReplaceNamesAppendStep(a, x, st);
    }
  }

  /** Cleaning keeps a leading non-word character non-word. */
  lemma StripNumbersHead(s: string)
    requires s != [] && !IsDigit(s[0])
    ensures StripNumbers(s) != [] && StripNumbers(s)[0] == s[0]
  {
    assert NumberMatch(s) == 0;
  }

  lemma MarkedName(name: string)
    requires forall i :: 0 <= i < |name| ==> IsWord(name[i])
    ensures forall i :: 0 <= i < |"@" + name| ==> !IsSpace(("@" + name)[i])
    ensures Lower("@" + name) == "@" + Lower(name)
  {
    LowerAppend("@", name);
    assert Lower("@") == "@" by { assert ToLower('@') == '@'; }
  }

  lemma CleanAtName(p: string, name: string, q: string)
    requires name != [] && forall i :: 0 <= i < |name| ==> IsWord(name[i])
    ensures Clean(p + "@" + name + q) == LStrip(Collapse(Lower(p))) + ("@" + Lower(name) + RStrip(Collapse(Lower(q))))
  {
    var w := "@" + name;
    MarkedName(name);
    CleanAround(p, w, q);
    Concat3(p, "@", name);
    var a, b := LStrip(Collapse(Lower(p))), RStrip(Collapse(Lower(q)));
    Concat3(a, "@" + Lower(name), b);
  }

  lemma StripAtName(a: string, w: string, b: string)
    requires forall i :: 0 <= i < |w| ==> !IsDigit(w[i])
    ensures StripNumbers(a + ("@" + w + b)) == StripNumbers(a) + ("@" + w + StripNumbers(b))
  {
    StripNumbersAppend(a, "@" + w + b);
    assert "@" + w + b == ("@" + w) + b;
    StripNumbersNoDigits("@" + w, b);
  }

  lemma StripAroundName(p: string, name: string, q: string)
    requires name != [] && forall i :: 0 <= i < |name| ==> IsWord(name[i]) && !IsDigit(name[i])
    ensures StripNumbers(Clean(p + "@" + name + q)) ==
      StripNumbers(LStrip(Collapse(Lower(p)))) + ("@" + Lower(name) + StripNumbers(RStrip(Collapse(Lower(q)))))
  {
    CleanAtName(p, name, q);
    StripAtName(LStrip(Collapse(Lower(p))), Lower(name), RStrip(Collapse(Lower(q))));
  }

  /** The cleaned text after a name still starts with a non-word character once
      its numbers are gone. */
  lemma TailSignatureStart(q: string)
    requires q == [] || !IsWord(q[0])
    ensures var sq := StripNumbers(RStrip(Collapse(Lower(q)))); sq == [] || !IsWord(sq[0])
  {
    var cq := RStrip(Collapse(Lower(q)));
    CleanTailStart(q);
    if cq != [] {
      StripNumbersHead(cq);
    }
  }

  lemma LowerName(name: string)
    requires name != [] && forall i :: 0 <= i < |name| ==> IsWord(name[i])
    ensures Lower(name) != [] && forall i :: 0 <= i < |Lower(name)| ==> IsWord(Lower(name)[i])
  {
  }

  lemma ReplaceNamesAround(sp: string, ln: string, sq: string)
    requires ln != [] && forall i :: 0 <= i < |ln| ==> IsWord(ln[i])
    requires sq == [] || !IsWord(sq[0])
    ensures ReplaceNames(sp + ("@" + ln + sq), Plain) ==
      ReplaceNames(sp, Plain) + "@@" + ReplaceNames(sq, Plain)
  {
    var x := "@" + ln + sq;
    assert x[0] == '@';
    ReplaceNamesAppend(sp, x, Plain);
    ReplaceNamesAt(ln, sq, Plain);
    Concat3(ReplaceNames(sp, Plain), "@@", ReplaceNames(sq, Plain));
  }

  /** The signature of a line holding `@name`: the name contributes only '@',
      whatever it is, and the text on either side is sanitized on its own. */
  lemma SanitizeAroundName(p: string, name: string, q: string)
    requires name != [] && forall i :: 0 <= i < |name| ==> IsWord(name[i]) && !IsDigit(name[i])
    requires q == [] || !IsWord(q[0])
    ensures Sanitize(p + "@" + name + q) ==
      ReplaceNames(StripNumbers(LStrip(Collapse(Lower(p)))), Plain) + "@@" +
      ReplaceNames(StripNumbers(RStrip(Collapse(Lower(q)))), Plain)
  {
    var sp, sq := StripNumbers(LStrip(Collapse(Lower(p)))), StripNumbers(RStrip(Collapse(Lower(q))));
    StripAroundName(p, name, q);
    TailSignatureStart(q);
    LowerName(name);
    ReplaceNamesAround(sp, Lower(name), sq);
  }

  /** Two lines that differ only in the name written after an '@' have the same
      signature: every label reference matches the table entry written `@`. */
  lemma SanitizeIgnoresName(p: string, name1: string, name2: string, q: string)
    requires name1 != [] && forall i :: 0 <= i < |name1| ==> IsWord(name1[i]) && !IsDigit(name1[i])
    requires name2 != [] && forall i :: 0 <= i < |name2| ==> IsWord(name2[i]) && !IsDigit(name2[i])
    requires q == [] || !IsWord(q[0])
    ensures Sanitize(p + "@" + name1 + q) == Sanitize(p + "@" + name2 + q)
  {
    SanitizeAroundName(p, name1, q);
    SanitizeAroundName(p, name2, q);
  }

  /** The signature of a line holding a marked value `#digits` or `@digits`: the
      digits go, the marker stays, and the text on either side is cleaned and
      stripped of literals on its own before the names are replaced. */
  lemma SanitizeAroundValue(p: string, m: char, d: string, q: string)
    requires m == '#' || m == '@'
    requires forall i :: 0 <= i < |d| ==> IsDigit(d[i])
    requires q == [] || !IsWord(q[0])
    ensures Sanitize(p + [m] + d + q) ==
      ReplaceNames(StripNumbers(LStrip(Collapse(Lower(p)))) + [m] + StripNumbers(RStrip(Collapse(Lower(q)))), Plain)
  {
    CleanAroundValue(p, m, d, q);
    CleanTailStart(q);
    StripAroundValue(LStrip(Collapse(Lower(p))), m, d, RStrip(Collapse(Lower(q))));
  }

  /** Two lines that differ only in the decimal value after the operand marker
      have the same signature: `lda #5` and `lda #200` both look up `lda #`. */
  lemma SanitizeIgnoresValue(p: string, m: char, d1: string, d2: string, q: string)
    requires m == '#' || m == '@'
    requires forall i :: 0 <= i < |d1| ==> IsDigit(d1[i])
    requires forall i :: 0 <= i < |d2| ==> IsDigit(d2[i])
    requires q == [] || !IsWord(q[0])
    ensures Sanitize(p + [m] + d1 + q) == Sanitize(p + [m] + d2 + q)
  {
    SanitizeAroundValue(p, m, d1, q);
    SanitizeAroundValue(p, m, d2, q);
  }

  /** An immediate operand: `lda #5` looks up `lda #`. */
  lemma SanitizeImmediateExample()
    ensures Sanitize("lda #5") == "lda #"
  {
    assert "lda " + ['#'] + "5" + [] == "lda #5";
    SanitizeAroundValue("lda ", '#', "5", []);
    ImmediateExampleSides();
  }

  /** Both sides of `lda #5` survive cleaning, literal deletion and name
      replacement as they are. */
  lemma ImmediateExampleSides()
    ensures ReplaceNames(StripNumbers(LStrip(Collapse(Lower("lda ")))) + ['#'] + StripNumbers(RStrip(Collapse(Lower([])))), Plain) == "lda #"
  {
    assert Lower("lda ") == "lda ";
    assert Collapse("lda ") == "lda ";
    assert LStrip("lda ") == "lda ";
    StripNumbersNoDigits("lda ", []);
    assert StripNumbers(LStrip(Collapse(Lower("lda ")))) + ['#'] + StripNumbers(RStrip(Collapse(Lower([])))) == "lda #";
    ReplaceNamesNoAt("lda #");
  }

  // ---------------------------------------------------------------------------
  // The mnemonic table (tools/assembler.py:52-65)

  /** Loading into an empty table: a line that is the empty string is skipped,
      every other line must start with `Instruction("...")`, whose text is
      sanitized and appended; the first line that does not match stops the load.
      A line read from a file keeps its terminator and is never the empty string,
      so for a real file the skip never happens and a blank line (`"\n"`) stops
      the load like any other line without a declaration
      (`BlankTableLineRejected`). */
  function LoadTable(file: seq<string>): (r: Loaded)
    ensures |r.entries| <= |file|
    ensures r.status.Fail? ==> r.status.error.MalformedTableEntry? && 1 <= r.status.error.line <= |file|
    decreases |file|
  {
    if file == [] then Loaded([], Pass)
    else
      var prev := LoadTable(file[..|file| - 1]);
      var line := file[|file| - 1];
      if prev.status.Fail? || |line| == 0 then prev
      else match DeclText(line)
        case None => Loaded(prev.entries, Fail(MalformedTableEntry(|file|)))
        case Some(text) => Loaded(prev.entries + [Sanitize(text)], Pass)
  }

  /** Once a line has been rejected, the lines after it are never read. */
  lemma {:induction false} LoadTableStopsAtFailure(file: seq<string>, j: nat)
    requires j <= |file| && LoadTable(file[..j]).status.Fail?
    ensures LoadTable(file) == LoadTable(file[..j])
    decreases |file|
  {
    if j < |file| {
      assert file[..|file| - 1][..j] == file[..j];
      LoadTableStopsAtFailure(file[..|file| - 1], j);
    } else {
      assert file[..j] == file;
    }
  }

  /** Every line other than the empty string is a declaration (for lines read
      from a file, which keep their terminator: every line). */
  predicate AllDecls(file: seq<string>) {
    forall k :: 0 <= k < |file| && file[k] != [] ==> DeclText(file[k]).Some?
  }

  lemma AllDeclsSnoc(file: seq<string>)
    requires file != []
    ensures AllDecls(file) <==>
      AllDecls(file[..|file| - 1]) && (file[|file| - 1] != [] ==> DeclText(file[|file| - 1]).Some?)
  {
    var init := file[..|file| - 1];
    assert forall k :: 0 <= k < |init| ==> init[k] == file[k];
  }

  lemma LoadTableLast(file: seq<string>)
    requires file != []
    ensures LoadTable(file).status == Pass <==>
      LoadTable(file[..|file| - 1]).status == Pass &&
      (file[|file| - 1] != [] ==> DeclText(file[|file| - 1]).Some?)
  {
  }

  /** Loading succeeds exactly when every line other than the empty string is a
      declaration. */
  lemma {:induction false} LoadTablePasses(file: seq<string>)
    ensures LoadTable(file).status == Pass <==> AllDecls(file)
    decreases |file|
  {
    if file != [] {
      LoadTablePasses(file[..|file| - 1]);
      LoadTableLast(file);
      AllDeclsSnoc(file);
    }
  }

  /** The load stops with the number of the first line that is neither the empty
      string nor a declaration. */
  lemma {:induction false} LoadTableFirstBadLine(file: seq<string>, n: nat)
    requires 1 <= n <= |file| && file[n - 1] != [] && DeclText(file[n - 1]).None?
    requires forall k :: 0 <= k < n - 1 && file[k] != [] ==> DeclText(file[k]).Some?
    ensures LoadTable(file).status == Fail(MalformedTableEntry(n))
  {
    var init := file[..n - 1];
    assert forall k :: 0 <= k < |init| ==> init[k] == file[k];
    assert AllDecls(init);
    LoadTablePasses(init);
    var upto := file[..n];
    assert upto[..|upto| - 1] == init && upto[|upto| - 1] == file[n - 1];
    assert LoadTable(upto).status == Fail(MalformedTableEntry(n));
    LoadTableStopsAtFailure(file, n);
  }

  /** A blank line of a table file, read as `"\n"`, is not skipped: the load
      stops with its line number. */
  lemma BlankTableLineRejected(file: seq<string>, n: nat)
    requires 1 <= n <= |file| && file[n - 1] == "\n"
    requires forall k :: 0 <= k < n - 1 ==> DeclText(file[k]).Some?
    ensures LoadTable(file).status == Fail(MalformedTableEntry(n))
  {
    LoadTableFirstBadLine(file, n);
  }

  lemma LoadTableDecl(file: seq<string>)
    requires file != [] && LoadTable(file[..|file| - 1]).status == Pass
    requires DeclText(file[|file| - 1]).Some?
    ensures LoadTable(file) ==
      Loaded(LoadTable(file[..|file| - 1]).entries + [Sanitize(DeclText(file[|file| - 1]).value)], Pass)
  {
    assert |InstructionPrefix| < |file[|file| - 1]|;
  }

  /** The table entry of a declaration line: its sanitized text. */
  function EntryOf(line: string): string {
    match DeclText(line)
    case None => []
    case Some(text) => Sanitize(text)
  }

  /** On a file of declarations only, the load succeeds and entry k (opcode k)
      is the sanitized text of declaration k (see `MapSeqAt`): a declaration's
      position in the file is its opcode. */
  lemma {:induction false} LoadTableOpcodes(file: seq<string>)
    requires forall k :: 0 <= k < |file| ==> DeclText(file[k]).Some?
    ensures LoadTable(file) == Loaded(MapSeq(file, EntryOf), Pass)
    decreases |file|
  {
    if file != [] {
      var init := file[..|file| - 1];
      assert forall k :: 0 <= k < |init| ==> init[k] == file[k];
      LoadTableOpcodes(init);
      LoadTableDecl(file);
    }
  }

  // ---------------------------------------------------------------------------
  // Operands (tools/assembler.py:120-134)

  /** What follows the operand marker: a number, a label name, or nothing usable. */
  datatype Operand = NoOperand | Immediate(text: string) | LabelRef(name: string)

  /** The operand of a cleaned instruction line.  The number search comes first,
      so a digit anywhere after the marker makes the operand an immediate, and
      only a name without any digit after the marker is a label reference. */
  function OperandOf(line: string): (r: Operand)
    ensures OperandMarker(line) < 0 ==> r == NoOperand
    ensures r.Immediate? <==> OperandMarker(line) >= 0 &&
                              exists i :: OperandMarker(line) < i < |line| && IsDigit(line[i])
    ensures r.Immediate? ==> r.text != [] && IsDigit(r.text[0])
    ensures r.LabelRef? ==> r.name != [] && forall i :: 0 <= i < |r.name| ==> IsWord(r.name[i]) && !IsDigit(r.name[i])
    ensures r == NoOperand && OperandMarker(line) >= 0 ==>
      forall i :: OperandMarker(line) < i < |line| ==> !IsWord(line[i])
  {
    var at := OperandMarker(line);
    if at < 0 then NoOperand
    else match NumberSearch(line, at + 1)
      case Some(text) => Immediate(text)
      case None =>
        match SearchFrom(line, at + 1, IsWord)
        case None => NoOperand
        case Some(p) =>
          var name := line[p..][..Span(line[p..], IsWord)];
          assert forall i :: 0 <= i < |name| ==> name[i] == line[p + i];
          LabelRef(name)
  }

  /** The first marker followed, past characters that are not digits, by a whole
      numeral makes that numeral the immediate: `lda #200` reads `200`, `lda #010`
      reads `010`, and `jmp @089` reads only the `0` before the non-octal `8`. */
  lemma OperandImmediate(p: string, m: char, g: string, d: string, q: string)
    requires m == '#' || m == '@'
    requires '#' !in p && '@' !in p
    requires m == '@' ==> '#' !in g + d + q
    requires forall i :: 0 <= i < |g| ==> !IsDigit(g[i])
    requires WholeLiteral(d, q)
    ensures OperandOf(p + [m] + g + d + q) == Immediate(d)
  {
    assert p + [m] + g + d + q == p + [m] + (g + d + q);
    OperandMarkerAt(p, m, g + d + q);
    NumberSearchLiteral(p + [m], g, d, q);
  }

  /** `@` directly followed by a name without digits, with no digit anywhere
      after it, makes that name the label reference: `jmp @end` refers to `end`. */
  lemma OperandLabel(p: string, n: string, q: string)
    requires '#' !in p && '@' !in p
    requires n != [] && forall i :: 0 <= i < |n| ==> IsWord(n[i]) && !IsDigit(n[i])
    requires forall i :: 0 <= i < |q| ==> !IsDigit(q[i]) && q[i] != '#'
    requires q == [] || !IsWord(q[0])
    ensures OperandOf(p + "@" + n + q) == LabelRef(n)
  {
    var line := p + "@" + n + q;
    var at := |p|;
    assert line == p + ['@'] + (n + q);
    assert '#' !in n + q by {
      assert forall i :: 0 <= i < |n + q| ==> (n + q)[i] != '#';
    }
    OperandMarkerAt(p, '@', n + q);
    assert line[at + 1..] == n + q;
    assert forall i :: at + 1 <= i < |line| ==> line[i] == (n + q)[i - at - 1];
    assert NumberSearch(line, at + 1).None?;
    assert SearchFrom(line, at + 1, IsWord) == Some(at + 1);
    SpanAll(n, IsWord);
    SpanAppend(n, q, IsWord);
    assert (n + q)[..|n|] == n;
  }

  /** `lda #200` carries the immediate `200`. */
  lemma OperandDecimalExample()
    ensures OperandOf("lda #200") == Immediate("200")
  {
    assert WholeLiteral("200", "");
    assert "lda " + ['#'] + "" + "200" + "" == "lda #200";
    OperandImmediate("lda ", '#', "", "200", "");
  }

  /** `lda #010` carries the immediate `010`, leading zero and all. */
  lemma OperandLeadingZeroExample()
    ensures OperandOf("lda #010") == Immediate("010")
  {
    assert WholeLiteral("010", "");
    assert "lda " + ['#'] + "" + "010" + "" == "lda #010";
    OperandImmediate("lda ", '#', "", "010", "");
  }

  /** `jmp @loop1` carries the immediate 1: the number search looks inside names. */
  lemma OperandDigitInNameExample()
    ensures OperandOf("jmp @loop1") == Immediate("1")
  {
    assert WholeLiteral("1", "");
    assert "jmp " + ['@'] + "loop" + "1" + "" == "jmp @loop1";
    OperandImmediate("jmp ", '@', "loop", "1", "");
  }

  /** `jmp @089` carries the immediate 0: a leading `0` takes only octal digits. */
  lemma OperandOctalStopExample()
    ensures OperandOf("jmp @089") == Immediate("0")
  {
    assert WholeLiteral("0", "89");
    assert "jmp " + ['@'] + "" + "0" + "89" == "jmp @089";
    OperandImmediate("jmp ", '@', "", "0", "89");
  }

  /** `jmp @end` refers to the label `end`. */
  lemma OperandLabelExample()
    ensures OperandOf("jmp @end") == LabelRef("end")
  {
    assert "jmp " + "@" + "end" + "" == "jmp @end";
    OperandLabel("jmp ", "end", "");
  }

  // ---------------------------------------------------------------------------
  // Pass one (tools/assembler.py:88-134)

  /** What the line loop makes of one source line before it touches any state:
      blank, a label declaration, a line the mnemonic pattern rejects, or an
      instruction with its cleaned text, its lookup signature and its operand. */
  datatype Line =
    | Blank
    | LabelLine(name: string)
    | BadSyntax
    | Instr(text: string, signature: string, operand: Operand)

  /** The tests of the line loop in their order: blank after cleaning, then the
      label pattern, then the mnemonic pattern. */
  function Classify(raw: string): (l: Line)
    ensures l.Blank? <==> Clean(raw) == []
    ensures l.LabelLine? ==> LabelDecl(Clean(raw)) == Some(l.name)
    ensures l.Instr? ==> l.text == Clean(raw) && l.signature == Sanitize(l.text) && l.operand == OperandOf(l.text)
    ensures l.BadSyntax? || l.Instr? ==> LabelDecl(Clean(raw)).None?
    ensures l.BadSyntax? <==> Clean(raw) != [] && LabelDecl(Clean(raw)).None? && !MnemonicMatches(Clean(raw))
  {
    var line := Clean(raw);
    if line == [] then Blank
    else match LabelDecl(line)
      case Some(name) => LabelLine(name)
      case None =>
        if !MnemonicMatches(line) then BadSyntax
        else Instr(line, Sanitize(line), OperandOf(line))
  }

  /** The classified lines of a source file; line k + 1 of the file is `Lines(source)[k]`. */
  function Lines(source: seq<string>): (r: seq<Line>)
    ensures |r| == |source|
  {
    seq(|source|, k requires 0 <= k < |source| => Classify(source[k]))
  }

  /** The state of pass one: the instruction stream, the label addresses and the
      fixups (placeholder address to label name). */
  datatype PassOne = PassOne(output: seq<Cell>, labels: map<string, nat>, fixups: map<nat, string>)

  /** Pass one never changes an earlier cell or label. */
  predicate Extends(st: PassOne, next: PassOne) {
    && st.output <= next.output
    && (forall name :: name in st.labels ==> name in next.labels && next.labels[name] == st.labels[name])
  }

  /** An operand pass one accepts: anything but an immediate that `int()`
      rejects or that is above 255. */
  predicate OperandOk(operand: Operand) {
    operand.Immediate? ==> ParseInt(operand.text).Some? && ParseInt(operand.text).value <= 255
  }

  /** The operand part of an instruction line, once the opcode cell is in `st`:
      an immediate becomes a value cell (after the base-10 conversion and the
      range check), a label reference a placeholder cell recorded in the fixups. */
  function AppendOperand(st: PassOne, linenum: nat, operand: Operand): (r: Result<PassOne>)
    ensures r.Ok? <==> OperandOk(operand)
    ensures r.Ok? ==> Extends(st, r.value) && r.value.labels == st.labels
    ensures r.Ok? ==> (|r.value.output| == |st.output| + 1 <==> operand != NoOperand)
    ensures r.Ok? ==> (|r.value.output| == |st.output| <==> operand == NoOperand)
    ensures operand.Immediate? ==>
      match ParseInt(operand.text)
      case None => r == Err(BadLiteral(linenum))
      case Some(value) => r == if value > 255 then Err(ValueOutOfRange(linenum))
                               else Ok(st.(output := st.output + [Cell(None, Some(value))]))
    ensures operand.LabelRef? ==>
      (r.Ok? && r.value.output == st.output + [Cell(None, None)] &&
       r.value.fixups == st.fixups[|st.output| := operand.name])
    ensures r.Ok? && !operand.LabelRef? ==> r.value.fixups == st.fixups
    ensures r.Err? ==> operand.Immediate? && (r.error.BadLiteral? || r.error.ValueOutOfRange?) && r.error.line == linenum
  {
    match operand
    case NoOperand => Ok(st)
    case Immediate(text) =>
      (match ParseInt(text)
       case None => Err(BadLiteral(linenum))
       case Some(value) =>
         if value > 255 then Err(ValueOutOfRange(linenum))
         else Ok(st.(output := st.output + [Cell(None, Some(value))])))
    case LabelRef(name) =>
      Ok(PassOne(st.output + [Cell(None, None)], st.labels, st.fixups[|st.output| := name]))
  }

  /** An instruction line: the signature must be in the table, and the opcode
      cell `(line, opcode)` is appended before the operand. */
  function Instruction(table: seq<string>, st: PassOne, linenum: nat, text: string, signature: string, operand: Operand): (r: Result<PassOne>)
    ensures r.Ok? ==> Extends(st, r.value) && r.value.labels == st.labels
    ensures r.Ok? ==>
      (IndexOf(table, signature).Some? && |r.value.output| > |st.output| &&
       r.value.output[|st.output|] == Cell(Some(text), IndexOf(table, signature)))
    ensures r.Ok? ==> (|r.value.output| == |st.output| + 2 <==> operand != NoOperand)
    ensures IndexOf(table, signature).None? ==> r == Err(UnknownInstruction(linenum))
    ensures r.Ok? <==> IndexOf(table, signature).Some? && OperandOk(operand)
    ensures r.Err? && r.error.UnknownInstruction? <==> IndexOf(table, signature).None?
    ensures r.Err? && r.error.BadLiteral? <==>
      IndexOf(table, signature).Some? && operand.Immediate? && ParseInt(operand.text).None?
    ensures r.Err? && r.error.ValueOutOfRange? <==>
      IndexOf(table, signature).Some? && operand.Immediate? && ParseInt(operand.text).Some? &&
      ParseInt(operand.text).value > 255
    ensures r.Ok? && !operand.LabelRef? ==> r.value.fixups == st.fixups
    ensures r.Ok? && operand.LabelRef? ==> r.value.fixups == st.fixups[|st.output| + 1 := operand.name]
    ensures r.Ok? && operand.Immediate? ==>
      ParseInt(operand.text).Some? && r.value.output[|st.output| + 1] == Cell(None, ParseInt(operand.text))
    ensures r.Ok? && operand.LabelRef? ==> r.value.output[|st.output| + 1] == Cell(None, None)
    ensures r.Err? ==> (r.error.UnknownInstruction? || r.error.BadLiteral? || r.error.ValueOutOfRange?) &&
                       r.error.line == linenum
  {
    match IndexOf(table, signature)
    case None => Err(UnknownInstruction(linenum))
    case Some(opcode) =>
      AppendOperand(st.(output := st.output + [Cell(Some(text), Some(opcode))]), linenum, operand)
  }

  /** One iteration of the line loop on line number `linenum`: a blank line is
      skipped, a label binds its name to the number of cells emitted so far (the
      rest of that line is ignored), a line the mnemonic pattern rejects fails
      the assertion, and an instruction emits its cells. */
  function Step(table: seq<string>, st: PassOne, linenum: nat, l: Line): (r: Result<PassOne>)
    ensures r.Ok? ==> Extends(st, r.value) && |r.value.output| <= |st.output| + 2
    ensures r.Err? ==> (r.error.DuplicateLabel? || r.error.SyntaxError? || r.error.UnknownInstruction? ||
                        r.error.BadLiteral? || r.error.ValueOutOfRange?) && r.error.line == linenum
    ensures r.Err? && r.error.DuplicateLabel? <==> l.LabelLine? && l.name in st.labels
    ensures l.Blank? ==> r == Ok(st)
    ensures l.BadSyntax? ==> r == Err(SyntaxError(linenum))
    ensures l.Instr? ==> (r.Ok? <==> IndexOf(table, l.signature).Some? && OperandOk(l.operand))
    ensures l.LabelLine? && l.name !in st.labels ==>
      r.Ok? && r.value.output == st.output && r.value.fixups == st.fixups &&
      r.value.labels == st.labels[l.name := |st.output|]
  {
    match l
    case Blank => Ok(st)
    case LabelLine(name) =>
      if name in st.labels then Err(DuplicateLabel(linenum))
      else Ok(st.(labels := st.labels[name := |st.output|]))
    case BadSyntax => Err(SyntaxError(linenum))
    case Instr(text, signature, operand) => Instruction(table, st, linenum, text, signature, operand)
  }

  /** Pass one over the classified lines; the line number of `lines[k]` is k + 1.
      Every state it reaches is well formed. */
  function Run(table: seq<string>, lines: seq<Line>): (r: Result<PassOne>)
    ensures r.Ok? ==> |r.value.output| <= 2 * |lines|
    ensures r.Ok? ==> WellFormed(table, r.value)
    decreases |lines|
  {
    if lines == [] then Ok(PassOne([], map[], map[]))
    else
      match Run(table, lines[..|lines| - 1])
      case Err(e) => Err(e)
      case Ok(st) =>
        StepWellFormed(table, st, |lines|, lines[|lines| - 1]);
        Step(table, st, |lines|, lines[|lines| - 1])
  }

  /** An opcode cell: an annotation (its line) and a position in the table. */
  predicate OpcodeCell(table: seq<string>, c: Cell) {
    c.annotation.Some? && c.value.Some? && c.value.value < |table|
  }

  /** Cell k is an operand cell directly after an opcode cell: an immediate in
      0..255, or a placeholder. */
  predicate OperandCell(table: seq<string>, output: seq<Cell>, k: int)
    requires 0 <= k < |output|
  {
    0 < k && OpcodeCell(table, output[k - 1]) && output[k].annotation.None? &&
    (output[k].value.Some? ==> output[k].value.value <= 255)
  }

  /** Every cell is an opcode cell or the single operand cell after one. */
  predicate CellsOk(table: seq<string>, output: seq<Cell>) {
    forall k :: 0 <= k < |output| ==> OpcodeCell(table, output[k]) || OperandCell(table, output, k)
  }

  /** What pass one maintains: the placeholders are exactly the fixup entries,
      label addresses are at most the number of cells, and the cells are an
      opcode cell, each followed by at most one operand cell. */
  predicate WellFormed(table: seq<string>, st: PassOne) {
    && (forall a :: a in st.fixups ==> a < |st.output| && st.output[a] == Cell(None, None))
    && (forall k :: 0 <= k < |st.output| && st.output[k].value.None? ==> k in st.fixups)
    && (forall name :: name in st.labels ==> st.labels[name] <= |st.output|)
    && CellsOk(table, st.output)
  }

  lemma CellsAppend(table: seq<string>, output: seq<Cell>, c: Cell)
    requires CellsOk(table, output)
    requires OpcodeCell(table, c) ||
             (output != [] && OpcodeCell(table, output[|output| - 1]) && c.annotation.None? &&
              (c.value.Some? ==> c.value.value <= 255))
    ensures CellsOk(table, output + [c])
  {
    var out := output + [c];
    var n := |output|;
    forall k | 0 <= k < |out|
      ensures OpcodeCell(table, out[k]) || OperandCell(table, out, k)
    {
      if k < n {
        assert out[k] == output[k];
        if !OpcodeCell(table, output[k]) {
          assert OperandCell(table, output, k);
          assert out[k - 1] == output[k - 1];
        }
      } else if !OpcodeCell(table, c) {
        assert out[k - 1] == output[n - 1];
      }
    }
  }

  lemma AppendOperandWellFormed(table: seq<string>, st: PassOne, linenum: nat, operand: Operand)
    requires WellFormed(table, st)
    requires st.output != [] && OpcodeCell(table, st.output[|st.output| - 1])
    ensures AppendOperand(st, linenum, operand).Ok? ==> WellFormed(table, AppendOperand(st, linenum, operand).value)
  {
    var r := AppendOperand(st, linenum, operand);
    if r.Ok? {
      match operand
      case NoOperand =>
      case Immediate(text) =>
        var c := Cell(None, ParseInt(text));
        var out := st.output + [c];
        assert r.value == st.(output := out);
        CellsAppend(table, st.output, c);
        assert forall k :: 0 <= k < |st.output| ==> out[k] == st.output[k];
        assert WellFormed(table, st.(output := out));
      case LabelRef(name) =>
        var c := Cell(None, None);
        var out := st.output + [c];
        assert r.value == PassOne(out, st.labels, st.fixups[|st.output| := name]);
        CellsAppend(table, st.output, c);
        assert forall k :: 0 <= k < |st.output| ==> out[k] == st.output[k];
        var n := |st.output|;
        var fixups := st.fixups[n := name];
        forall a | a in fixups
          ensures a < |out| && out[a] == Cell(None, None)
        {
          if a != n { assert a in st.fixups; }
        }
        forall k | 0 <= k < |out| && out[k].value.None?
          ensures k in fixups
        {
          if k < n { assert st.output[k].value.None?; }
        }
        assert WellFormed(table, PassOne(out, st.labels, fixups));
    }
  }

  lemma InstructionWellFormed(table: seq<string>, st: PassOne, linenum: nat, text: string, signature: string, operand: Operand)
    requires WellFormed(table, st)
    ensures Instruction(table, st, linenum, text, signature, operand).Ok? ==>
      WellFormed(table, Instruction(table, st, linenum, text, signature, operand).value)
  {
    if IndexOf(table, signature).Some? {
      var c := Cell(Some(text), IndexOf(table, signature));
      var out := st.output + [c];
      assert OpcodeCell(table, c);
      CellsAppend(table, st.output, c);
      assert forall k :: 0 <= k < |st.output| ==> out[k] == st.output[k];
      var mid := st.(output := out);
      assert WellFormed(table, mid);
      AppendOperandWellFormed(table, mid, linenum, operand);
    }
  }

  lemma StepWellFormed(table: seq<string>, st: PassOne, linenum: nat, l: Line)
    requires WellFormed(table, st)
    ensures Step(table, st, linenum, l).Ok? ==> WellFormed(table, Step(table, st, linenum, l).value)
  {
    if l.Instr? {
      InstructionWellFormed(table, st, linenum, l.text, l.signature, l.operand);
    }
  }

  /** Once a line is rejected, the lines after it are never processed. */
  lemma {:induction false} RunStopsAtError(table: seq<string>, lines: seq<Line>, j: nat)
    requires j <= |lines| && Run(table, lines[..j]).Err?
    ensures Run(table, lines) == Run(table, lines[..j])
    decreases |lines|
  {
    if j < |lines| {
      assert lines[..|lines| - 1][..j] == lines[..j];
      RunStopsAtError(table, lines[..|lines| - 1], j);
    } else {
      assert lines[..j] == lines;
    }
  }

  /** A successful pass one went through every prefix successfully, and each
      later state extends the earlier ones. */
  lemma {:induction false} RunPrefix(table: seq<string>, lines: seq<Line>, j: nat)
    requires j <= |lines| && Run(table, lines).Ok?
    ensures Run(table, lines[..j]).Ok?
    ensures Extends(Run(table, lines[..j]).value, Run(table, lines).value)
    decreases |lines|
  {
    if j == |lines| {
      assert lines[..j] == lines;
    } else {
      var init := lines[..|lines| - 1];
      assert init[..j] == lines[..j];
      RunPrefix(table, init, j);
    }
  }

  /** The state after line j (0-based) is one step from the state before it. */
  lemma RunOneMore(table: seq<string>, lines: seq<Line>, j: nat)
    requires j < |lines| && Run(table, lines[..j]).Ok?
    ensures Run(table, lines[..j + 1]) == Step(table, Run(table, lines[..j]).value, j + 1, lines[j])
  {
    TakeNext(lines, j);
  }

  /** The names bound after pass one are exactly the names of its label lines. */
  lemma {:induction false} RunLabels(table: seq<string>, lines: seq<Line>)
    requires Run(table, lines).Ok?
    ensures forall name :: name in Run(table, lines).value.labels <==>
      exists i :: 0 <= i < |lines| && lines[i] == LabelLine(name)
    decreases |lines|
  {
    if lines != [] {
      var init := lines[..|lines| - 1];
      var last := lines[|lines| - 1];
      RunLabels(table, init);
      var st := Run(table, init).value;
      var labels := Run(table, lines).value.labels;
      assert forall i :: 0 <= i < |init| ==> init[i] == lines[i];
      if last.LabelLine? {
        assert labels == st.labels[last.name := |st.output|];
      } else {
        assert labels == st.labels;
      }
      forall name | name in labels
        ensures exists i :: 0 <= i < |lines| && lines[i] == LabelLine(name)
      {
        if name !in st.labels {
          assert lines[|lines| - 1] == LabelLine(name);
        }
      }
    }
  }

  /** Line k on its own terms: a rejected line never passes, a label passes when
      no earlier line declares it, an instruction when its signature is in the
      table and its operand is acceptable. */
  predicate LineOk(table: seq<string>, lines: seq<Line>, k: int)
    requires 0 <= k < |lines|
  {
    match lines[k]
    case Blank => true
    case BadSyntax => false
    case LabelLine(name) => forall i :: 0 <= i < k ==> lines[i] != LabelLine(name)
    case Instr(_, signature, operand) => IndexOf(table, signature).Some? && OperandOk(operand)
  }

  /** Pass one succeeds exactly when every line is acceptable: blank lines,
      labels declared once, and known instructions with a byte-sized immediate,
      a label or no operand. */
  lemma {:induction false} RunSucceeds(table: seq<string>, lines: seq<Line>)
    ensures Run(table, lines).Ok? <==> forall k :: 0 <= k < |lines| ==> LineOk(table, lines, k)
    decreases |lines|
  {
    if lines != [] {
      var n := |lines| - 1;
      var init := lines[..n];
      RunSucceeds(table, init);
      assert forall i :: 0 <= i < |init| ==> init[i] == lines[i];
      assert forall k :: 0 <= k < |init| ==> (LineOk(table, init, k) <==> LineOk(table, lines, k));
      if Run(table, init).Err? {
        var k :| 0 <= k < |init| && !LineOk(table, init, k);
        assert !LineOk(table, lines, k);
      } else {
        RunLabels(table, init);
        var st := Run(table, init).value;
        assert Run(table, lines) == Step(table, st, |lines|, lines[n]);
        if lines[n].LabelLine? {
          var name := lines[n].name;
          assert name in st.labels <==> exists i :: 0 <= i < n && lines[i] == LabelLine(name);
        }
        assert Run(table, lines).Ok? <==> LineOk(table, lines, n);
      }
    }
  }

  /** The cells that instruction line j (0-based) appends. */
  lemma LineStep(table: seq<string>, lines: seq<Line>, j: nat)
    requires j < |lines| && lines[j].Instr?
    requires Run(table, lines[..j]).Ok? && Run(table, lines[..j + 1]).Ok?
    ensures |Run(table, lines[..j]).value.output| < |Run(table, lines[..j + 1]).value.output|
    ensures Run(table, lines[..j + 1]).value.output[|Run(table, lines[..j]).value.output|] ==
      Cell(Some(lines[j].text), IndexOf(table, lines[j].signature))
    ensures IndexOf(table, lines[j].signature).Some?
    ensures lines[j].operand != NoOperand ==>
      |Run(table, lines[..j]).value.output| + 1 < |Run(table, lines[..j + 1]).value.output|
    ensures lines[j].operand.Immediate? ==> ParseInt(lines[j].operand.text).Some?
    ensures lines[j].operand.Immediate? ==>
      Run(table, lines[..j + 1]).value.output[|Run(table, lines[..j]).value.output| + 1] ==
        Cell(None, ParseInt(lines[j].operand.text))
  {
    RunOneMore(table, lines, j);
  }

  /** Instruction line j (0-based) starts at the address equal to the number of
      cells produced by the lines before it: its opcode cell is `(line, first
      table index of the line's signature)`, followed by an operand cell exactly
      when the line has an operand. */
  lemma LineCells(table: seq<string>, lines: seq<Line>, j: nat)
    requires j < |lines| && Run(table, lines).Ok? && lines[j].Instr?
    ensures Run(table, lines[..j]).Ok?
    ensures |Run(table, lines[..j]).value.output| < |Run(table, lines).value.output|
    ensures Run(table, lines).value.output[|Run(table, lines[..j]).value.output|] ==
      Cell(Some(lines[j].text), IndexOf(table, lines[j].signature))
    ensures IndexOf(table, lines[j].signature).Some?
    ensures lines[j].operand != NoOperand ==>
      |Run(table, lines[..j]).value.output| + 1 < |Run(table, lines).value.output|
    ensures lines[j].operand.Immediate? ==> ParseInt(lines[j].operand.text).Some?
    ensures lines[j].operand.Immediate? ==>
      Run(table, lines).value.output[|Run(table, lines[..j]).value.output| + 1] ==
        Cell(None, ParseInt(lines[j].operand.text))
  {
    RunPrefix(table, lines, j + 1);
    RunPrefix(table, lines, j);
    LineStep(table, lines, j);
  }

  /** The label line j (0-based) binds its name to the number of cells so far. */
  lemma LabelStep(table: seq<string>, lines: seq<Line>, j: nat)
    requires j < |lines| && lines[j].LabelLine?
    requires Run(table, lines[..j]).Ok? && Run(table, lines[..j + 1]).Ok?
    ensures lines[j].name in Run(table, lines[..j + 1]).value.labels
    ensures Run(table, lines[..j + 1]).value.labels[lines[j].name] == |Run(table, lines[..j]).value.output|
  {
    RunOneMore(table, lines, j);
  }

  /** After a successful pass one, a label declared on line j (0-based) is bound
      to the number of cells produced by the lines before it. */
  lemma LabelAddress(table: seq<string>, lines: seq<Line>, j: nat)
    requires j < |lines| && Run(table, lines).Ok? && lines[j].LabelLine?
    ensures Run(table, lines[..j]).Ok?
    ensures lines[j].name in Run(table, lines).value.labels
    ensures Run(table, lines).value.labels[lines[j].name] == |Run(table, lines[..j]).value.output|
  {
    RunPrefix(table, lines, j);
    RunPrefix(table, lines, j + 1);
    LabelStep(table, lines, j);
  }

  /** A label declared on line i is bound in every later successful state. */
  lemma LabelBoundAfter(table: seq<string>, lines: seq<Line>, i: nat, j: nat)
    requires i < j <= |lines| && lines[i].LabelLine? && Run(table, lines[..j]).Ok?
    ensures lines[i].name in Run(table, lines[..j]).value.labels
  {
    TakeTake(lines, i, j);
    assert lines[..j][i] == lines[i];
    LabelAddress(table, lines[..j], i);
  }

  /** Declaring the same label on two lines makes pass one fail. */
  lemma DuplicateLabelRejected(table: seq<string>, lines: seq<Line>, i: nat, j: nat)
    requires i < j < |lines| && lines[i].LabelLine? && lines[j] == lines[i]
    ensures Run(table, lines).Err?
  {
    if Run(table, lines).Ok? {
      RunPrefix(table, lines, j);
      LabelBoundAfter(table, lines, i, j);
      RunPrefix(table, lines, j + 1);
      RunOneMore(table, lines, j);
      assert false;
    }
  }

  /** Every fixup of `st` is still recorded, for the same name, in `next`. */
  predicate FixupsKept(st: PassOne, next: PassOne) {
    forall a :: a in st.fixups ==> a in next.fixups && next.fixups[a] == st.fixups[a]
  }

  lemma StepKeepsFixups(table: seq<string>, st: PassOne, linenum: nat, l: Line)
    requires forall a :: a in st.fixups ==> a < |st.output|
    ensures Step(table, st, linenum, l).Ok? ==> FixupsKept(st, Step(table, st, linenum, l).value)
  {
    var r := Step(table, st, linenum, l);
    if r.Ok? && l.Instr? && l.operand.LabelRef? {
      assert r.value.fixups == st.fixups[|st.output| + 1 := l.operand.name];
    }
  }

  /** A fixup, once recorded, survives to the end of a successful pass one. */
  lemma {:induction false} RunKeepsFixups(table: seq<string>, lines: seq<Line>, j: nat)
    requires j <= |lines| && Run(table, lines).Ok?
    ensures Run(table, lines[..j]).Ok?
    ensures FixupsKept(Run(table, lines[..j]).value, Run(table, lines).value)
    decreases |lines|
  {
    if j == |lines| {
      assert lines[..j] == lines;
    } else {
      var init := lines[..|lines| - 1];
      assert init[..j] == lines[..j];
      RunPrefix(table, lines, |lines| - 1);
      RunKeepsFixups(table, init, j);
      StepKeepsFixups(table, Run(table, init).value, |lines|, lines[|lines| - 1]);
    }
  }

  /** An instruction line i (0-based) with a label reference records a fixup at
      the cell after its opcode cell. */
  lemma JumpPlaceholder(table: seq<string>, lines: seq<Line>, i: nat)
    requires i < |lines| && Run(table, lines[..i]).Ok? && Run(table, lines[..i + 1]).Ok?
    requires lines[i].Instr? && lines[i].operand.LabelRef?
    ensures |Run(table, lines[..i]).value.output| + 1 in Run(table, lines[..i + 1]).value.fixups
    ensures Run(table, lines[..i + 1]).value.fixups[|Run(table, lines[..i]).value.output| + 1] ==
      lines[i].operand.name
  {
    RunOneMore(table, lines, i);
  }

  /** The fixup of a label reference on line i is in the final fixup table. */
  lemma JumpFixup(table: seq<string>, lines: seq<Line>, i: nat)
    requires i < |lines| && Run(table, lines).Ok?
    requires lines[i].Instr? && lines[i].operand.LabelRef?
    ensures Run(table, lines[..i]).Ok?
    ensures |Run(table, lines[..i]).value.output| + 1 in Run(table, lines).value.fixups
    ensures Run(table, lines).value.fixups[|Run(table, lines[..i]).value.output| + 1] == lines[i].operand.name
  {
    RunPrefix(table, lines, i);
    RunKeepsFixups(table, lines, i + 1);
    JumpPlaceholder(table, lines, i);
  }

  /** The body of the line loop on one classified line, updating the output,
      the labels and the fixups the way `Step` says. */
  method ProcessLine(table: seq<string>, output: seq<Cell>, labels: map<string, nat>, fixups: map<nat, string>,
                     linenum: nat, l: Line)
    returns (r: Result<PassOne>)
    ensures r == Step(table, PassOne(output, labels, fixups), linenum, l)
  {
    match l {
      case Blank =>
        r := Ok(PassOne(output, labels, fixups));
      case LabelLine(name) =>
        if name in labels {
          return Err(DuplicateLabel(linenum));
        }
        r := Ok(PassOne(output, labels[name := |output|], fixups));
      case BadSyntax =>
        r := Err(SyntaxError(linenum));
      case Instr(text, signature, operand) =>
        var opcode := IndexOf(table, signature);
        if opcode.None? {
          return Err(UnknownInstruction(linenum));
        }
        var cells := output + [Cell(Some(text), opcode)];
        var pending := fixups;
        match operand {
          case NoOperand =>
          case Immediate(digits) =>
            var value := ParseInt(digits);
            if value.None? {
              return Err(BadLiteral(linenum));
            }
            if value.value > 255 {
              return Err(ValueOutOfRange(linenum));
            }
            cells := cells + [Cell(None, value)];
          case LabelRef(name) =>
            cells := cells + [Cell(None, None)];
            pending := pending[|cells| - 1 := name];
        }
        r := Ok(PassOne(cells, labels, pending));
    }
  }

  /** The line loop of `Assemble` over the classified lines of the source: it
      computes `Run`, stopping at the first line that is rejected. */
  method PassOneLoop(table: seq<string>, lines: seq<Line>) returns (r: Result<PassOne>)
    ensures r == Run(table, lines)
  {
    var output: seq<Cell> := [];
    var labels: map<string, nat> := map[];
    var fixups: map<nat, string> := map[];
    var i := 0;
    while i < |lines|
      invariant 0 <= i <= |lines|
      invariant Run(table, lines[..i]) == Ok(PassOne(output, labels, fixups))
    {
      RunOneMore(table, lines, i);
      var next := ProcessLine(table, output, labels, fixups, i + 1, lines[i]);
      if next.Err? {
        RunStopsAtError(table, lines, i + 1);
        TakeAll(lines);
        return next;
      }
      output, labels, fixups := next.value.output, next.value.labels, next.value.fixups;
      i := i + 1;
    }
    TakeAll(lines);
    r := Ok(PassOne(output, labels, fixups));
  }

  // ---------------------------------------------------------------------------
  // Pass two: the fixups (tools/assembler.py:136-142)

  /** The cells after the fixup loop: every recorded address holds the address of
      its label (the annotation of the cell kept), every other cell is unchanged;
      a recorded name that was never declared stops the assembly. */
  function Resolve(output: seq<Cell>, labels: map<string, nat>, fixups: map<nat, string>): (r: Result<seq<Cell>>)
    requires forall a :: a in fixups ==> a < |output|
    ensures r.Err? <==> exists a :: a in fixups && fixups[a] !in labels
    ensures r.Err? ==> r.error == UndefinedLabel
    ensures r.Ok? ==> |r.value| == |output|
    ensures r.Ok? ==> forall a :: a in fixups ==> r.value[a] == Cell(output[a].annotation, Some(labels[fixups[a]]))
    ensures r.Ok? ==> forall k :: 0 <= k < |output| && k !in fixups ==> r.value[k] == output[k]
  {
    if exists a :: a in fixups && fixups[a] !in labels then Err(UndefinedLabel)
    else Ok(seq(|output|, k requires 0 <= k < |output| =>
                if k in fixups then Cell(output[k].annotation, Some(labels[fixups[k]])) else output[k]))
  }

  /** The fixup loop, visiting the recorded addresses in an arbitrary order (the
      order of `dict.iteritems()` is unspecified) and overwriting each cell in
      place.  Whatever the order, the result is `Resolve`'s. */
  method FixupJumps(output: seq<Cell>, labels: map<string, nat>, fixups: map<nat, string>) returns (r: Result<seq<Cell>>)
    requires forall a :: a in fixups ==> a < |output|
    ensures r == Resolve(output, labels, fixups)
  {
    var cells := output;
    var todo := fixups.Keys;
    while todo != {}
      invariant todo <= fixups.Keys
      invariant |cells| == |output|
      invariant forall a :: a in fixups && a !in todo ==> fixups[a] in labels
      invariant forall k :: 0 <= k < |cells| && k in fixups && k !in todo ==>
        cells[k] == Cell(output[k].annotation, Some(labels[fixups[k]]))
      invariant forall k :: 0 <= k < |cells| && (k !in fixups || k in todo) ==> cells[k] == output[k]
      decreases |todo|
    {
      var address :| address in todo;
      var name := fixups[address];
      if name !in labels {
        return Err(UndefinedLabel);
      }
      var existing := cells[address];
      cells := cells[address := Cell(existing.annotation, Some(labels[name]))];
      todo := todo - {address};
    }
    r := Ok(cells);
    assert r.value == Resolve(output, labels, fixups).value;
  }

  /** Pass one followed by the fixups: the finished instruction stream. */
  function Assembled(table: seq<string>, lines: seq<Line>): (r: Result<seq<Cell>>)
    ensures r.Ok? ==> Run(table, lines).Ok? && |r.value| == |Run(table, lines).value.output|
    ensures r.Ok? ==> forall k :: 0 <= k < |r.value| ==> r.value[k].value.Some?
    ensures Run(table, lines).Err? ==> r == Err(Run(table, lines).error)
  {
    match Run(table, lines)
    case Err(e) => Err(e)
    case Ok(st) =>
      Resolve(st.output, st.labels, st.fixups)
  }

  /** A label reference on an instruction line jumps to its label: the operand
      cell after the opcode holds the number of cells produced before the line
      that declares the label. */
  lemma JumpTarget(table: seq<string>, lines: seq<Line>, i: nat, j: nat)
    requires i < |lines| && j < |lines| && Assembled(table, lines).Ok?
    requires lines[i].Instr? && lines[i].operand.LabelRef?
    requires lines[j] == LabelLine(lines[i].operand.name)
    ensures Run(table, lines[..i]).Ok? && Run(table, lines[..j]).Ok?
    ensures |Run(table, lines[..i]).value.output| + 1 < |Assembled(table, lines).value|
    ensures Assembled(table, lines).value[|Run(table, lines[..i]).value.output| + 1] ==
      Cell(None, Some(|Run(table, lines[..j]).value.output|))
  {
    var st := Run(table, lines).value;
    JumpFixup(table, lines, i);
    LabelAddress(table, lines, j);
    assert Assembled(table, lines) == Resolve(st.output, st.labels, st.fixups);
  }

  /** An immediate survives the fixups: the cell after the opcode of an
      instruction line with an immediate holds `int()` of its text. */
  lemma ImmediateCell(table: seq<string>, lines: seq<Line>, j: nat)
    requires j < |lines| && Assembled(table, lines).Ok?
    requires lines[j].Instr? && lines[j].operand.Immediate?
    ensures Run(table, lines[..j]).Ok?
    ensures |Run(table, lines[..j]).value.output| + 1 < |Assembled(table, lines).value|
    ensures Assembled(table, lines).value[|Run(table, lines[..j]).value.output| + 1] ==
      Cell(None, ParseInt(lines[j].operand.text))
  {
    var st := Run(table, lines).value;
    LineCells(table, lines, j);
    assert WellFormed(table, st);
    assert Assembled(table, lines) == Resolve(st.output, st.labels, st.fixups);
    ValueCellKept(st, |Run(table, lines[..j]).value.output| + 1);
  }

  /** A cell that already holds a value is no placeholder, so the fixups keep it. */
  lemma ValueCellKept(st: PassOne, a: nat)
    requires forall k :: k in st.fixups ==> k < |st.output| && st.output[k] == Cell(None, None)
    requires a < |st.output| && st.output[a].value.Some?
    ensures Resolve(st.output, st.labels, st.fixups).Ok? ==>
      Resolve(st.output, st.labels, st.fixups).value[a] == st.output[a]
  {
    assert a !in st.fixups;
  }

  /** End to end: a source line whose cleaned text has a whole numeral `d` after
      its marker stores the base-10 value of `d` in the cell after its opcode. */
  lemma ImmediateStored(table: seq<string>, source: seq<string>, j: nat,
                        p: string, m: char, g: string, d: string, q: string)
    requires j < |source| && Assembled(table, Lines(source)).Ok?
    requires Lines(source)[j].Instr? && Lines(source)[j].text == p + [m] + g + d + q
    requires m == '#' || m == '@'
    requires '#' !in p && '@' !in p
    requires m == '@' ==> '#' !in g + d + q
    requires forall i :: 0 <= i < |g| ==> !IsDigit(g[i])
    requires WholeLiteral(d, q)
    ensures Run(table, Lines(source)[..j]).Ok?
    ensures |Run(table, Lines(source)[..j]).value.output| + 1 < |Assembled(table, Lines(source)).value|
    ensures Assembled(table, Lines(source)).value[|Run(table, Lines(source)[..j]).value.output| + 1] ==
      Cell(None, Some(DecimalValue(d)))
  {
    OperandImmediate(p, m, g, d, q);
    ImmediateCell(table, Lines(source), j);
  }

  /** End to end: `jmp @name` stores the address of the line declaring `name`. */
  lemma NamedJumpStored(table: seq<string>, source: seq<string>, i: nat, j: nat, p: string, n: string, q: string)
    requires i < |source| && j < |source| && Assembled(table, Lines(source)).Ok?
    requires Lines(source)[i].Instr? && Lines(source)[i].text == p + "@" + n + q
    requires Lines(source)[j] == LabelLine(n)
    requires '#' !in p && '@' !in p
    requires n != [] && forall k :: 0 <= k < |n| ==> IsWord(n[k]) && !IsDigit(n[k])
    requires forall k :: 0 <= k < |q| ==> !IsDigit(q[k]) && q[k] != '#'
    requires q == [] || !IsWord(q[0])
    ensures Run(table, Lines(source)[..i]).Ok? && Run(table, Lines(source)[..j]).Ok?
    ensures |Run(table, Lines(source)[..i]).value.output| + 1 < |Assembled(table, Lines(source)).value|
    ensures Assembled(table, Lines(source)).value[|Run(table, Lines(source)[..i]).value.output| + 1] ==
      Cell(None, Some(|Run(table, Lines(source)[..j]).value.output|))
  {
    OperandLabel(p, n, q);
    JumpTarget(table, Lines(source), i, j);
  }

  /** With at most 256 table entries and fewer than 256 cells, every finished
      cell holds a byte, so each object-file line reads back as its address, its
      value and its annotation. */
  lemma AssembledBytes(table: seq<string>, lines: seq<Line>)
    requires Assembled(table, lines).Ok? && |table| <= 256 && |Assembled(table, lines).value| < 256
    ensures forall k :: 0 <= k < |Assembled(table, lines).value| ==>
      Assembled(table, lines).value[k].value.value < 256
  {
    var st := Run(table, lines).value;
    var cells := Assembled(table, lines).value;
    assert cells == Resolve(st.output, st.labels, st.fixups).value;
    forall k | 0 <= k < |cells|
      ensures cells[k].value.value < 256
    {
      if k !in st.fixups {
        assert cells[k] == st.output[k];
        assert OpcodeCell(table, st.output[k]) || OperandCell(table, st.output, k);
      }
    }
  }

  /** Every line of the object file reads back as its own address, the byte
      stored there and the source text annotating it: no cell is left without
      a value once the jumps are fixed up, and every value fits in eight bits. */
  lemma EmittedLines(table: seq<string>, lines: seq<Line>)
    requires Assembled(table, lines).Ok? && |table| <= 256 && |Assembled(table, lines).value| < 256
    ensures forall k :: 0 <= k < |Assembled(table, lines).value| ==>
      DecodeLine(FormatLine(k, Assembled(table, lines).value[k])) ==
        Some((k, Assembled(table, lines).value[k].value.value, Annotation(Assembled(table, lines).value[k])))
  {
    AssembledBytes(table, lines);
    FormatLinesRoundTrip(Assembled(table, lines).value);
  }

  // ---------------------------------------------------------------------------
  // The assembler (tools/assembler.py:52-65, 76-156)

  /** The module state of tools/assembler.py: the global mnemonic table. */
  class Assembler {
    /** `s_mnemonics`: position k holds the signature of opcode k. */
    var mnemonics: seq<string>

    constructor()
      ensures mnemonics == []
    {
      mnemonics := [];
    }

    /** `LoadMnemonics`: a table that is already loaded is kept; otherwise the
        declaration file is read line by line into it. */
    method LoadMnemonics(file: seq<string>) returns (status: Outcome)
      modifies this
      ensures old(mnemonics) != [] ==> mnemonics == old(mnemonics) && status == Pass
      ensures old(mnemonics) == [] ==> Loaded(mnemonics, status) == LoadTable(file)
    {
      if mnemonics != [] {
        return Pass;
      }
      var i := 0;
      while i < |file|
        invariant 0 <= i <= |file|
        invariant LoadTable(file[..i]) == Loaded(mnemonics, Pass)
      {
        var line := file[i];
        TakeNext(file, i);
        if |line| != 0 {
          match DeclText(line) {
            case None =>
              LoadTableStopsAtFailure(file, i + 1);
              return Fail(MalformedTableEntry(i + 1));
            case Some(text) =>
              mnemonics := mnemonics + [Sanitize(text)];
          }
        }
        i := i + 1;
      }
      TakeAll(file);
      status := Pass;
    }

    /** `Assemble`: load the table, run pass one and the fixups, and produce the
        lines of the object file. */
    method Assemble(tableFile: seq<string>, source: seq<string>) returns (r: Result<seq<string>>)
      modifies this
      ensures old(mnemonics) != [] ==> mnemonics == old(mnemonics)
      ensures old(mnemonics) == [] ==> mnemonics == LoadTable(tableFile).entries
      ensures old(mnemonics) == [] && LoadTable(tableFile).status.Fail? ==>
        r == Err(LoadTable(tableFile).status.error)
      ensures !(old(mnemonics) == [] && LoadTable(tableFile).status.Fail?) ==>
        (r.Err? <==> Assembled(mnemonics, Lines(source)).Err?) &&
        (r.Err? ==> r.error == Assembled(mnemonics, Lines(source)).error)
      ensures r.Ok? ==> Assembled(mnemonics, Lines(source)).Ok?
      ensures r.Ok? ==> |r.value| == |Assembled(mnemonics, Lines(source)).value|
      ensures r.Ok? ==> forall k :: 0 <= k < |r.value| ==>
        r.value[k] == FormatLine(k, Assembled(mnemonics, Lines(source)).value[k])
    {
      var status := LoadMnemonics(tableFile);
      if status.Fail? {
        return Err(status.error);
      }
      var table := mnemonics;
      var lines := Lines(source);
      var pass := PassOneLoop(table, lines);
      if pass.Err? {
        return Err(pass.error);
      }
      var st := pass.value;
      var cells := FixupJumps(st.output, st.labels, st.fixups);
      if cells.Err? {
        return Err(cells.error);
      }
      var text := WriteOutput(cells.value);
      r := Ok(text);
    }
  }
}
